=== FILE: README.md ===
# permfixer, modelled in Dafny

permfixer is a Linux daemon that keeps ownership and permissions in line with a
table of rules. Each rule (`PermMapping`) names a path prefix, an owner
`uid:gid`, a file mode `fmode` and a directory mode `dmode`.

At startup the daemon goes through the configured roots in order. Every root
that is a directory is:

- watched with inotify;
- enforced with the rule that `map_permission` resolves for it;
- crawled: every subdirectory below it is watched and enforced with `dmode`,
  and every file is enforced with `fmode`.

After that it reacts to inotify events:

- An entry created or moved into a watched directory gets the rule resolved
  for its path. A new directory is also watched and crawled.
- Deletions change nothing.
- `IN_IGNORED` (the kernel dropped a watch) removes that watch from the table.
- The daemon stops once the watch table is empty.

This project models `src/main.rs` without its system calls, as pure functions
over an explicit state:

- **Paths** (`paths.dfy`) are sequences of components. `starts_with` is a
  whole-component prefix test.
- **Metadata** (`metadata.dfy`) is a map from existing paths to kind, owner,
  group and mode. `chown` and `set_permissions` are map updates. Every metadata
  call is also appended to a call trace, whose replay is the reference
  semantics.
- **Rule resolution** (`policy.dfy`) models `map_permission`. Its contract is
  the first covering rule in declaration order.
- **The watch table** (`watches.dfy`) is a map from handles to paths. The daemon
  state (`state.dfy`) holds the table, the metadata, the handle the kernel hands
  out next, and the trace. It also holds `add_watch` and `chown_and_chmod`.
- **The crawler** (`crawler.dfy`) takes what `read_dir` reports as a tree of
  `File`/`Dir` entries.
- **One event** (`events.dfy`) is handled by `Step`, which tests the mask in the
  source's order: creation/move-in, deletion, invalidation.
- **The daemon** (`daemon.dfy`) covers:
  - the startup loop and its exit statuses: 1 for a bad root, 101 for a panic;
  - the event loop over batches from `read_events_blocking`;
  - `RunDaemon`, which puts the two together.
- **Scenarios** (`scenarios.dfy`) are concrete runs of the whole daemon.

Other processes change the filesystem between events. Each event therefore
carries the change that preceded it and the `read_dir` listing seen at the
moment it is handled.

A `unwrap`/`expect` that panics has two forms in the model:

- inside the single operations it is a precondition, for example that an entry
  to be enforced exists;
- at the level of `Startup` and `Run` it is an explicit `Aborted` outcome with
  exit status 101.

Three behaviours of the code are worth knowing:

- An existing configured root that is neither a directory nor a regular file
  (a socket, a device) is skipped silently (src/main.rs:50-67). Only a missing
  root or a regular file ends the process with status 1. `Daemon.StartupFrom`
  skips such a root too.
- The crawl applies the subtree root's rule to everything below it and never
  resolves again. With rules `/srv/app` (uid 1000) and then `/srv` (uid 0),
  startup first enforces `/srv/app` with its own rule. It then crawls `/srv`
  with the `/srv` rule, so `/srv/app` ends with uid 0, although the resolver
  maps `/srv/app` to the uid-1000 rule (`Scenarios.CrawlOverridesNestedRule`).
- The table is checked for emptiness only before each batch of events, never
  inside one (`Daemon.RunBatch`).

## Model

| member | source | states |
|---|---|---|
| Paths.Join | src/main.rs:95 | The event path: the watched directory when the event has no name (`unwrap_or_default`), otherwise the named child; either way it starts with the watched directory |
| Policy.MapPermission | src/main.rs:144-156 | The result is `None` exactly when no rule's path is a whole-component prefix of the query path; otherwise it is a rule at an index where it is the first covering rule in declaration order |
| Policy.ModeFor | src/main.rs:186 | The mode `chown_and_chmod` applies: `dmode` for a directory, `fmode` for anything else |
| Policy.MapPermissionIsFirstMatch | src/main.rs:145-151 | Whenever rule `i` is the first covering rule, the resolver returns exactly `ms[i]`, so the first match decides the answer |
| Policy.MapPermissionAppend | src/main.rs:147-151 | Declaration order decides: rules appended after a list that already covers the path never change the answer, and are consulted only when no earlier rule covers it |
| Policy.ConfiguredRootIsMapped | src/main.rs:50-53 | A configured root always resolves to some rule, at its own index or earlier, so the startup `if let Some` never skips a root |
| Policy.DescendantResolvesNoLater | src/main.rs:145-151 | A path below `p` resolves to the same rule as `p` or to an earlier one, never to a later one |
| Policy.EtcHostsResolvesToEtc | src/main.rs:221-248 | With rules `/etc` then `/var`, `/etc/hosts` resolves to the `/etc` rule with uid 0, gid 0, file mode 0644 and directory mode 0755 |
| Metadata.Chown | src/main.rs:197 | `chown` sets owner and group of the one entry, keeps its kind and mode, and leaves every other entry and the set of entries unchanged |
| Metadata.Chmod | src/main.rs:198 | `set_permissions` sets the mode of the one entry, keeps its kind and owner, and leaves every other entry and the set of entries unchanged |
| Metadata.ReplayAppend | src/main.rs:182-199 | Replaying a trace split in two is replaying the halves one after the other; this is the compositional reading of the call trace |
| Watches.Insert | src/main.rs:141 | `watches.insert(wd, path)` maps `wd` to `path`, keeps every other entry, and grows the table by one exactly when `wd` was not in it |
| Watches.Remove | src/main.rs:121 | `watches.remove(wd)` drops exactly `wd`, keeps every other entry's path, and shrinks the table by one exactly when `wd` was in it |
| Watches.InsertThenRemove | src/main.rs:121-141 | Removing a freshly inserted handle gives back the original table |
| DaemonState.AddWatchToEmpty | src/main.rs:210-219 | Watching one existing directory from the initial, empty state leaves a table of size 1 |
| DaemonState.Initial | src/main.rs:43 | The table starts empty with no call made, and the handle allocator is fresh for it |
| DaemonState.WatchDir | src/main.rs:127-142 | `add_watch` records the handle it is given against the path and moves the allocator on; with a fresh allocator the table grows by exactly one and stays fresh; metadata and trace are untouched |
| DaemonState.Enforce | src/main.rs:181-199 | After `chown_and_chmod` the entry has the rule's uid and gid and `dmode` or `fmode` according to the `is_dir` argument, keeps its kind, every other entry is unchanged, and the trace gains the owner call followed by the mode call |
| DaemonState.EnforceReplays | src/main.rs:196-198 | The calls one enforcement issues are on an existing entry, replay to its resulting metadata, and are an owner-then-mode pair for the rule |
| DaemonState.EnforcesOnlyAppend | src/main.rs:182-199 | Joining two traces that only enforce a rule gives a trace that only enforces that rule |
| DaemonState.EnforceIdempotent | src/main.rs:181-199 | Enforcing the same rule twice on the same entry leaves the same metadata as enforcing it once |
| DaemonState.ChownAndChmodExample | src/main.rs:250-281 | Rule 1000:1000, 0644/0755: a file ends with mode 0644 and a directory with 0755, both owned 1000:1000 |
| Crawler.Crawl | src/main.rs:158-179 | The crawl keeps the set of entries, uses one new handle per directory in the listing, and only extends the trace |
| Crawler.ListedSplit | src/main.rs:168-174 | An existing listing splits into an existing first entry, that directory's own existing listing, and the existing rest, which is what the recursive call and the loop need |
| Crawler.SubdirsAreNotFiles | src/main.rs:171-177 | With distinct names, no path is both a watched subdirectory and an enforced file |
| Crawler.CrawlWatchTable | src/main.rs:171-174 | The crawl's table is the old table plus exactly the handles it was given; entries outside those are unchanged, and each new handle names a directory of the listing, never a file |
| Crawler.CrawlWatchKeys | src/main.rs:171-174 | The crawl's table holds the old handles and exactly those it allocated; old handles keep their paths |
| Crawler.CrawlWatchNew | src/main.rs:171-174 | Every handle the crawl allocates is in the table and names a directory of the listing |
| Crawler.CrawlWatchesEverySubdir | src/main.rs:171-174 | Every directory below the crawled root gets a handle from the crawl |
| Crawler.CrawlOwnsEntry | src/main.rs:168-177 | For every entry below the crawled directory, the crawl's calls include a `chown` of it to the rule's owner |
| Crawler.CrawlWatchCount | src/main.rs:159-179 | With a fresh allocator the table grows by exactly the number of directories below the root and stays fresh |
| Crawler.CrawlMetadataAt | src/main.rs:171-177 | With distinct names: every subdirectory ends with the rule's owner and `dmode`, every file with the rule's owner and `fmode`, and every other entry is untouched |
| Crawler.CrawlFrame | src/main.rs:159-179 | An entry outside the crawled tree keeps its metadata |
| Crawler.CrawlKeepsEntries | src/main.rs:159-179 | The crawl creates and removes no entry and changes no entry's kind |
| Crawler.CrawlCallCount | src/main.rs:171-177 | The crawl makes exactly two metadata calls per entry below the root |
| Crawler.CrawlTrace | src/main.rs:159-179 | The crawl's calls are on existing entries and replay to its metadata. Each is an owner-then-mode pair for the one rule it was given, so nothing is re-resolved |
| Crawler.WatchTree | src/main.rs:55-59 | Watch, enforce, crawl on a new directory: the directory gets the first handle and the rule's owner with `dmode`; every directory below it is watched; with distinct names every directory below gets the rule's owner with `dmode` and every file its owner with `fmode`; entries outside its tree are untouched; with a fresh allocator the table grows by one plus the directories below |
| Crawler.WatchTreeFacts | src/main.rs:55-59 | Watch-enforce-crawl keeps every entry and kind, gives the directory the first handle and `dmode`, leaves entries outside the tree untouched, and with a fresh allocator grows the table by one plus the directories below |
| Crawler.WatchTreeWatchesSubdirs | src/main.rs:55-59 | After watch-enforce-crawl, every directory below the new directory is in the watch table |
| Crawler.WatchTreeMetadata | src/main.rs:55-59 | With distinct names, watch-enforce-crawl leaves every directory below with the rule's owner and `dmode` and every file with its owner and `fmode` |
| Crawler.WatchTreeTrace | src/main.rs:55-59 | The calls of watch-enforce-crawl are on existing entries, replay to its metadata, and only enforce the one rule; the first two set the directory's owner and then its `dmode` |
| Crawler.WatchTreeCalls | src/main.rs:55-59 | Watch-enforce-crawl makes two calls for the directory and two for every entry below it, and among them a `chown` to the rule's owner of every such entry |
| Crawler.WatchTreeSegment | src/main.rs:55-59 | The calls watch-enforce-crawl appends have the full shape of a directory root's calls: owner then `dmode` on the directory, only the one rule, two calls per entry below, a `chown` of each |
| Crawler.WatchTreeHandle | src/main.rs:55-59 | Each directory below the watched one has a handle in the table after watch-enforce-crawl, naming that directory |
| Crawler.WatchTreeKeeps | src/main.rs:55-59 | When the allocator is fresh, watch-enforce-crawl keeps it fresh and keeps every older watch with its path |
| Crawler.CrawlPathExample | src/main.rs:283-308 | `/tmp/foo` holding `bar/file.txt`, watched and then crawled, ends with two watches |
| Events.EventPath | src/main.rs:93-95 | The event path starts with the watched directory; it is that directory when the event has no name, and its named child otherwise |
| Events.Has | src/main.rs:98 | `mask.contains(flag)` holds exactly when every bit of `flag` is already set in `mask` |
| Events.IsCreation | src/main.rs:98 | A mask counts as a creation exactly when it has the `IN_CREATE` bit or the `IN_MOVED_TO` bit |
| Events.CanHandle | src/main.rs:93-105 | The loop body does not panic on an event when its handle is in the table (line 94). For a covered creation, the path must also still exist for `add_watch` and `chown`. For a covered `IN_ISDIR` creation, it must still be a directory for `read_dir`, and everything listed below it must exist |
| Events.Step | src/main.rs:97-122 | Result per event kind. Creation or move-in on an uncovered path changes nothing. With a rule and `IN_ISDIR`: the path is watched under the next handle and gets `dmode`; every directory listed below it is watched; with distinct names, those directories get `dmode` and the files `fmode`; nothing outside its tree changes; with a fresh allocator, every older handle keeps its path. With a rule and no `IN_ISDIR`, only the path gets `fmode`. A deletion changes nothing. `IN_IGNORED` removes exactly the event's handle. Any other mask changes nothing |
| Events.StepInvariant | src/main.rs:97-122 | Every event keeps the allocator fresh and only extends the trace. The new calls are on existing entries and replay to the new metadata. On a covered creation they only enforce the resolved rule; otherwise there are none |
| Events.IgnoredIsInvalidation | src/main.rs:98-118 | An `IN_IGNORED` mask is neither a creation nor a deletion, so it reaches the invalidation branch |
| Daemon.StartupOutcome | src/main.rs:49-75 | Startup succeeds exactly when every root passes its checks. Otherwise it fails on the first root, in configuration order, that does not, with that root's fault: missing, regular file, or a vanished entry below it. Entries and kinds are kept |
| Daemon.StartupFrom | src/main.rs:50-75 | The startup loop from root `i` on. A success keeps every entry and its kind and only extends the trace. A failure is a missing root, a regular-file root or a vanished entry, never an event fault |
| Daemon.Startup | src/main.rs:49-75 | Startup from the initial state. A success keeps every entry and its kind. A failure is one of the three startup faults |
| Daemon.ExitStatus | src/main.rs:61-74 | `exit(1)` for a missing root or a regular-file root. 101, the panic status, for every other fault. No other status occurs |
| Daemon.StartupFromSucceeds | src/main.rs:49-75 | From root `i` on, startup succeeds exactly when every remaining root passes its checks |
| Daemon.StartupFromFailsAt | src/main.rs:49-75 | A failing startup from root `i` on stops at the first failing remaining root with that root's fault |
| Daemon.StartupWatchesRoots | src/main.rs:49-59 | After a successful startup the allocator is fresh, every configured root that is a directory is in the watch table, and so is every directory below such a root as its listing shows it |
| Daemon.StartupFromWatchesBelow | src/main.rs:52-59 | From root `i` on, a successful startup watches every directory below every remaining directory root, and later roots never drop those watches |
| Daemon.StartupTrace | src/main.rs:49-59 | After a successful startup the trace is one segment per configured root, in configuration order. A directory root's segment first sets the root's owner, then `dmode`, from the first matching rule; after that it only enforces that rule, holds exactly two calls for every entry of the root's listing, and sets the rule's owner on every one of those entries. Any other root's segment is empty. Every call targets an existing entry, and the final metadata is the replay of the trace |
| Daemon.StartupFromTrace | src/main.rs:49-59 | From root `i` on, a successful startup appends one segment per remaining root, each holding that root's calls (for a directory root: its own two, then two per entry of its listing, a `chown` of each entry to the rule's owner among them, all for that one rule), on existing entries and replaying to the final metadata |
| Daemon.DirRootTrace | src/main.rs:52-59 | A directory root contributes its watch-enforce-crawl calls as its segment, ahead of the remaining roots' segments; that segment covers the root and every entry of its listing, two calls each |
| Daemon.DirRootCalls | src/main.rs:52-59 | The calls a directory root's watch-enforce-crawl appends are that root's calls: the resolved rule's owner and `dmode` on the root, then two calls for each entry of its listing, a `chown` of each among them, all for that rule |
| Daemon.OtherRootTrace | src/main.rs:50-67 | A root that is neither a file nor a directory contributes an empty segment |
| Daemon.RunBatch | src/main.rs:86-123 | A batch whose next event cannot be handled fails with that event's fault, a panic with status 101. The fault is an unknown handle, a new directory that is no longer one when `read_dir` runs, or a vanished entry. A handled batch keeps the allocator fresh |
| Daemon.UnknownWatchPanics | src/main.rs:94 | An event whose handle is not in the table makes `unwrap` panic: the batch fails with the unknown-handle fault, status 101 |
| Daemon.NotADirectoryPanics | src/main.rs:168 | A covered `IN_ISDIR` creation whose path exists but is not a directory when handled fails the batch with the `read_dir` fault, status 101 |
| Daemon.Run | src/main.rs:77-124 | An empty table stops the loop before the next batch. A stop happens only with an empty table. A daemon still waiting has watches. Every abort has status 101. The allocator stays fresh |
| Daemon.RunBatchFirst | src/main.rs:91-95 | A batch handles its first event and then the rest from the resulting state |
| Daemon.RunNextBatch | src/main.rs:78-91 | With watches left, the loop handles the next batch in full and continues from the state it leaves |
| Daemon.RunDaemon | src/main.rs:49-124 | Exit status 1 happens only when some configured root is missing or is a regular file; when every root passes its checks it never happens |
| Daemon.UnmappedEventIsSkipped | src/main.rs:98-100 | A creation on a path no rule covers is skipped: the batch continues from the unchanged state |
| Daemon.TwoInvalidationsShrinkByTwo | src/main.rs:118-121 | Two `IN_IGNORED` events on distinct watched handles in one batch shrink the table by exactly two, removing exactly those handles |
| Scenarios.StartupWatchesApp | src/main.rs:49-59 | Startup with one rule for an empty `/srv/app` watches it under handle 1 |
| Scenarios.CreatingSubWatchesIt | src/main.rs:98-105 | Creating `/srv/app/sub` watches it under handle 2 and gives it 1000:1000 and 0755 |
| Scenarios.CreatingTxtEnforcesIt | src/main.rs:106-108 | Creating `/srv/app/sub/a.txt` gives it 1000:1000 and 0644 and adds no watch |
| Scenarios.RemovingSubDropsItsWatch | src/main.rs:111-121 | Removing `sub` with its file leaves only the root watch |
| Scenarios.SrvAppScenario | src/main.rs:49-124 | The whole run: startup, then the three batches, ends with the daemon waiting and the table back to `{1: /srv/app}` |
| Scenarios.CrawlOverridesNestedRule | src/main.rs:50-59 | With rules `/srv/app` (uid 1000) then `/srv` (uid 0), startup leaves `/srv/app` owned by uid 0, although the resolver maps `/srv/app` to the uid-1000 rule |

## Left out

- inotify itself is not modelled: initialisation, `read_events_blocking` and the 1024-byte buffer. Each batch of events is an input sequence.
- The watch mask given to the kernel (`CREATE | DELETE | MOVED_TO`) is not modelled. Any mask may arrive, and `Step` handles each as the loop body does.
- `read_dir`, `exists`, `is_dir` and `is_file` are not modelled. They become the `Entry` listings and the kinds in the metadata map. The listing order is the input's order. The model does not check that a listing's `Dir` entries are exactly the directories in the metadata map; it assumes they agree, as `is_dir` on an unchanged filesystem would report.
- The root-privilege check, command-line argument handling, and reading and parsing the TOML configuration are not modelled. The model starts from the parsed rule list.
- All `println!`/`eprintln!` logging is left out.
- Setuid/setgid clearing by `chown`, the kernel's masking of `from_mode` to 07777, and umask are not modelled. Mode is the value passed.
- System-call failures other than a missing entry are not modelled, such as the inotify watch limit or `EPERM`. Such a failure is an `expect` panic with status 101, like the ones modelled.
- The kernel gives the same handle to a second watch on the same inode. This is not modelled: handles come from a counter, and `Insert` overwrites. Nested configured roots therefore get a second handle here.
- Symbolic links, `.` and `..`, and names that contain `/` are not modelled.
- Entries that appear or vanish while a single event is being handled, or during the startup crawl, are not modelled. Changes arrive only between events.
- Crawler.CrawlMetadataAt and Crawler.SubdirsAreNotFiles: both require that no listing names two entries alike. A real directory guarantees this; the `Entry` tree does not enforce it by itself.
- Watch handles are `i32` in the source. Their overflow is not modelled.
- DaemonState.WatchDir: the handle is assumed to be the next counter value rather than any fresh integer. Freshness is then the invariant `FreshAllocator`, which every operation keeps.
- A clean stop on an empty table returns normally from `main`, so the process exits with status 0. The model reports it as the `Stopped` outcome and does not attach a number to it.
- Daemon.Run and Daemon.StartupFrom: a failure reports only its fault, not the state reached. On disk, the metadata already written stays. That covers watch-enforce-crawl of earlier roots before `exit(1)`, and the owners and modes set before a later `expect` panics. The `Failure` and `Aborted` outcomes do not carry that state.

=== FILE: crawler.dfy ===
/** The recursive crawler (`crawl_path`) over a snapshot of a directory's content. */
module Crawler {
  import opened Paths
  import opened Metadata
  import opened Policy
  import opened DaemonState

  /** What `fs::read_dir` reports for one directory, recursively: each entry is
      a file (anything `is_dir` rejects) or a directory with its own entries.
      The order of siblings is whatever the filesystem returns. */
  datatype Entry = File(name: string) | Dir(name: string, children: seq<Entry>)

  /** Number of directories below a directory with entries `es`. */
  function DirCount(es: seq<Entry>): nat
  {
    if es == [] then 0
    else (if es[0].Dir? then 1 + DirCount(es[0].children) else 0) + DirCount(es[1..])
  }

  /** Number of non-directory entries below a directory with entries `es`. */
  function FileCount(es: seq<Entry>): nat
  {
    if es == [] then 0
    else (if es[0].Dir? then FileCount(es[0].children) else 1) + FileCount(es[1..])
  }

  /** Paths of all directories strictly below `dir`. */
  function SubdirPaths(dir: Path, es: seq<Entry>): set<Path>
    decreases es
  {
    if es == [] then {}
    else
      var p := Child(dir, es[0].name);
      (if es[0].Dir? then {p} + SubdirPaths(p, es[0].children) else {}) + SubdirPaths(dir, es[1..])
  }

  /** Paths of all non-directory entries strictly below `dir`. */
  function FilePaths(dir: Path, es: seq<Entry>): set<Path>
    decreases es
  {
    if es == [] then {}
    else
      var p := Child(dir, es[0].name);
      (if es[0].Dir? then FilePaths(p, es[0].children) else {p}) + FilePaths(dir, es[1..])
  }

  /** The names of the entries of one directory. */
  function Names(es: seq<Entry>): set<string>
  {
    if es == [] then {} else {es[0].name} + Names(es[1..])
  }

  /** A directory never lists two entries with the same name, at any depth. */
  predicate DistinctNames(es: seq<Entry>)
  {
    es == [] ||
    (&& es[0].name !in Names(es[1..])
     && (es[0].Dir? ==> DistinctNames(es[0].children))
     && DistinctNames(es[1..]))
  }

  /** Paths of all entries strictly below `dir`. */
  function AllPaths(dir: Path, es: seq<Entry>): set<Path>
  {
    SubdirPaths(dir, es) + FilePaths(dir, es)
  }

  /** Paths of entry `e` of directory `dir` and of everything below it. */
  function EntryPaths(dir: Path, e: Entry): set<Path>
  {
    var p := Child(dir, e.name);
    {p} + (if e.Dir? then AllPaths(p, e.children) else {})
  }

  /** Every entry of the snapshot exists in `fs`; `read_dir` only lists existing
      entries, and `chown` on a vanished one fails, which the source turns into a panic. */
  predicate Listed(fs: FileSystem, dir: Path, es: seq<Entry>)
  {
    AllPaths(dir, es) <= fs.Keys
  }

  /** `crawl_path(dir, perm)`: for every entry in listing order, a directory is
      watched, enforced with `perm.dmode` and crawled in turn; any other entry
      is enforced with `perm.fmode`. The same `perm` is used all the way down. */
  function Crawl(st: State, dir: Path, es: seq<Entry>, perm: PermMapping): (r: State)
    requires Listed(st.fs, dir, es)
    ensures r.fs.Keys == st.fs.Keys
    ensures r.nextWd == st.nextWd + DirCount(es)
    ensures st.trace <= r.trace
    decreases es
  {
    if es == [] then st
    else
      var p := Child(dir, es[0].name);
      ListedSplit(st.fs, dir, es);
      if es[0].Dir? then
        var s1 := Enforce(WatchDir(st, p), perm, p, true);
        Crawl(Crawl(s1, p, es[0].children, perm), dir, es[1..], perm)
      else
        Crawl(Enforce(st, perm, p, false), dir, es[1..], perm)
  }

  lemma AllPathsSplit(dir: Path, es: seq<Entry>)
    requires es != []
    ensures AllPaths(dir, es) == EntryPaths(dir, es[0]) + AllPaths(dir, es[1..])
  {
  }

  /** A listing that exists splits into its first entry, that entry's own
      listing, and the remaining entries, each of which exists. */
  lemma ListedSplit(fs: FileSystem, dir: Path, es: seq<Entry>)
    requires es != [] && Listed(fs, dir, es)
    ensures Child(dir, es[0].name) in fs
    ensures es[0].Dir? ==> Listed(fs, Child(dir, es[0].name), es[0].children)
    ensures Listed(fs, dir, es[1..])
  {
    AllPathsSplit(dir, es);
  }

  /** Every path below `dir` extends `dir` by at least one component, and that
      next component is the name of one of `dir`'s entries. */
  lemma {:induction false} PathsBelow(dir: Path, es: seq<Entry>, q: Path)
    requires q in AllPaths(dir, es)
    ensures |dir| < |q| && q[..|dir|] == dir
    ensures q[|dir|].Normal? && q[|dir|].name in Names(es)
    decreases es
  {
    AllPathsSplit(dir, es);
    if q in EntryPaths(dir, es[0]) {
      EntryPathsBelow(dir, es[0], q);
    } else {
      PathsBelow(dir, es[1..], q);
    }
  }

  /** Every path in the subtree of entry `e` goes through `e`. */
  lemma {:induction false} EntryPathsBelow(dir: Path, e: Entry, q: Path)
    requires q in EntryPaths(dir, e)
    ensures |dir| < |q| && q[..|dir|] == dir && q[|dir|] == Normal(e.name)
    decreases e, 0
  {
    var p := Child(dir, e.name);
    if q != p {
      PathsBelow(p, e.children, q);
      assert q[..|dir|] == q[..|p|][..|dir|];
    }
  }

  /** With distinct names, the subtree of the first entry shares no path with
      the subtrees of its later siblings. */
  lemma HeadApart(dir: Path, es: seq<Entry>, q: Path)
    requires es != [] && DistinctNames(es)
    requires q in EntryPaths(dir, es[0])
    ensures q !in AllPaths(dir, es[1..])
  {
    EntryPathsBelow(dir, es[0], q);
    if q in AllPaths(dir, es[1..]) {
      PathsBelow(dir, es[1..], q);
      assert false;
    }
  }

  /** With distinct names no path is both a directory and a file of the snapshot:
      crawling never watches a file. */
  lemma {:induction false} SubdirsAreNotFiles(dir: Path, es: seq<Entry>)
    requires DistinctNames(es)
    ensures SubdirPaths(dir, es) !! FilePaths(dir, es)
    decreases es
  {
    if es != [] {
      var p := Child(dir, es[0].name);
      SubdirsAreNotFiles(dir, es[1..]);
      if es[0].Dir? {
        SubdirsAreNotFiles(p, es[0].children);
      }
      forall q | q in SubdirPaths(dir, es)
        ensures q !in FilePaths(dir, es)
      {
        AllPathsSplit(dir, es);
        if q in EntryPaths(dir, es[0]) {
          HeadApart(dir, es, q);
          if es[0].Dir? {
            NotBelowItself(p, es[0].children);
          }
        }
      }
    }
  }

  lemma NotBelowItself(dir: Path, es: seq<Entry>)
    ensures dir !in AllPaths(dir, es)
  {
    if dir in AllPaths(dir, es) {
      PathsBelow(dir, es, dir);
    }
  }

  /** `crawl_path` adds exactly one watch per directory below `dir`: the table
      keeps every older entry outside the handles the crawl was given, and each
      new handle names a directory of the snapshot. */
  lemma CrawlWatchTable(st: State, dir: Path, es: seq<Entry>, perm: PermMapping)
    requires Listed(st.fs, dir, es)
    ensures var r := Crawl(st, dir, es, perm);
      && (forall wd :: wd in r.watches <==> wd in st.watches || st.nextWd <= wd < r.nextWd)
      && (forall wd :: wd in st.watches && !(st.nextWd <= wd < r.nextWd) ==> r.watches[wd] == st.watches[wd])
      && (forall wd :: st.nextWd <= wd < r.nextWd ==> r.watches[wd] in SubdirPaths(dir, es))
  {
    CrawlWatchKeys(st, dir, es, perm);
    CrawlWatchNew(st, dir, es, perm);
  }

  /** The crawl adds the handles it allocates and touches no other. */
  lemma {:induction false} CrawlWatchKeys(st: State, dir: Path, es: seq<Entry>, perm: PermMapping)
    requires Listed(st.fs, dir, es)
    ensures var r := Crawl(st, dir, es, perm);
      && (forall wd :: wd in r.watches <==> wd in st.watches || st.nextWd <= wd < r.nextWd)
      && (forall wd :: wd in st.watches && !(st.nextWd <= wd < r.nextWd) ==> r.watches[wd] == st.watches[wd])
    decreases es
  {
    if es != [] {
      var p := Child(dir, es[0].name);
      if es[0].Dir? {
        var s1 := Enforce(WatchDir(st, p), perm, p, true);
        CrawlWatchKeys(s1, p, es[0].children, perm);
        var s2 := Crawl(s1, p, es[0].children, perm);
        CrawlWatchKeys(s2, dir, es[1..], perm);
        assert Crawl(st, dir, es, perm) == Crawl(s2, dir, es[1..], perm);
      } else {
        CrawlWatchKeys(Enforce(st, perm, p, false), dir, es[1..], perm);
      }
    }
  }

  /** Every handle the crawl allocates names a directory below `dir`. */
  lemma {:induction false} CrawlWatchNew(st: State, dir: Path, es: seq<Entry>, perm: PermMapping)
    requires Listed(st.fs, dir, es)
    ensures var r := Crawl(st, dir, es, perm);
      forall wd :: st.nextWd <= wd < r.nextWd ==> wd in r.watches && r.watches[wd] in SubdirPaths(dir, es)
    decreases es
  {
    if es != [] {
      var p := Child(dir, es[0].name);
      var r := Crawl(st, dir, es, perm);
      ListedSplit(st.fs, dir, es);
      if es[0].Dir? {
        var s1 := Enforce(WatchDir(st, p), perm, p, true);
        var s2 := Crawl(s1, p, es[0].children, perm);
        assert r == Crawl(s2, dir, es[1..], perm);
        CrawlWatchNewDir(st, dir, es, perm, s1, s2);
      } else {
        var s2 := Enforce(st, perm, p, false);
        assert r == Crawl(s2, dir, es[1..], perm);
        CrawlWatchNewFile(st, dir, es, perm, s2);
      }
    }
  }

  /** `CrawlWatchNew` when the first entry is a file: only the rest allocate. */
  lemma {:induction false} CrawlWatchNewFile(st: State, dir: Path, es: seq<Entry>, perm: PermMapping, s2: State)
    requires Listed(st.fs, dir, es) && es != [] && !es[0].Dir?
    requires s2 == Enforce(st, perm, Child(dir, es[0].name), false)
    requires Listed(s2.fs, dir, es[1..])
    ensures var r := Crawl(s2, dir, es[1..], perm);
      forall wd :: st.nextWd <= wd < r.nextWd ==> wd in r.watches && r.watches[wd] in SubdirPaths(dir, es)
    decreases es, 0
  {
    CrawlWatchNew(s2, dir, es[1..], perm);
    assert SubdirPaths(dir, es) == SubdirPaths(dir, es[1..]);
  }

  /** `CrawlWatchNew` when the first entry is a directory: its handle, those of
      its own crawl, then those of the rest. */
  lemma {:induction false} CrawlWatchNewDir(st: State, dir: Path, es: seq<Entry>, perm: PermMapping, s1: State, s2: State)
    requires Listed(st.fs, dir, es) && es != [] && es[0].Dir?
    requires s1 == Enforce(WatchDir(st, Child(dir, es[0].name)), perm, Child(dir, es[0].name), true)
    requires Listed(s1.fs, Child(dir, es[0].name), es[0].children)
    requires s2 == Crawl(s1, Child(dir, es[0].name), es[0].children, perm)
    requires Listed(s2.fs, dir, es[1..])
    ensures var r := Crawl(s2, dir, es[1..], perm);
      forall wd :: st.nextWd <= wd < r.nextWd ==> wd in r.watches && r.watches[wd] in SubdirPaths(dir, es)
    decreases es, 0
  {
    var p := Child(dir, es[0].name);
    var r := Crawl(s2, dir, es[1..], perm);
    var below := SubdirPaths(p, es[0].children);
    var rest := SubdirPaths(dir, es[1..]);
    assert SubdirPaths(dir, es) == {p} + below + rest;
    assert s1.watches == st.watches[st.nextWd := p] && s1.nextWd == st.nextWd + 1;
    CrawlWatchKeys(s1, p, es[0].children, perm);
    CrawlWatchNew(s1, p, es[0].children, perm);
    CrawlWatchKeys(s2, dir, es[1..], perm);
    CrawlWatchNew(s2, dir, es[1..], perm);
    forall wd | st.nextWd <= wd < r.nextWd
      ensures wd in r.watches && r.watches[wd] in SubdirPaths(dir, es)
    {
      if wd == st.nextWd {
        assert s2.watches[wd] == p;
      } else if wd < s2.nextWd {
        assert s2.watches[wd] in below;
      } else {
        assert r.watches[wd] in rest;
      }
    }
  }

  /** Every directory below `dir` gets a watch from the crawl. */
  lemma {:induction false} CrawlWatchesEverySubdir(st: State, dir: Path, es: seq<Entry>, perm: PermMapping, d: Path)
    returns (wd: int)
    requires Listed(st.fs, dir, es)
    requires d in SubdirPaths(dir, es)
    ensures var r := Crawl(st, dir, es, perm);
      st.nextWd <= wd < r.nextWd && wd in r.watches && r.watches[wd] == d
    decreases es
  {
    var p := Child(dir, es[0].name);
    if d in SubdirPaths(dir, es[1..]) {
      if es[0].Dir? {
        var s2 := Crawl(Enforce(WatchDir(st, p), perm, p, true), p, es[0].children, perm);
        wd := CrawlWatchesEverySubdir(s2, dir, es[1..], perm, d);
      } else {
        var s2 := Enforce(st, perm, p, false);
        wd := CrawlWatchesEverySubdir(s2, dir, es[1..], perm, d);
      }
    } else {
      assert es[0].Dir?;
      var s1 := Enforce(WatchDir(st, p), perm, p, true);
      var s2 := Crawl(s1, p, es[0].children, perm);
      CrawlWatchTable(s1, p, es[0].children, perm);
      CrawlWatchTable(s2, dir, es[1..], perm);
      if d == p {
        wd := st.nextWd;
      } else {
        wd := CrawlWatchesEverySubdir(s1, p, es[0].children, perm, d);
      }
      assert s2.watches[wd] == d;
    }
  }

  /** With a fresh allocator the table grows by exactly the number of directories below `dir`. */
  lemma {:induction false} CrawlWatchCount(st: State, dir: Path, es: seq<Entry>, perm: PermMapping)
    requires Listed(st.fs, dir, es)
    requires FreshAllocator(st)
    ensures var r := Crawl(st, dir, es, perm);
      FreshAllocator(r) && |r.watches| == |st.watches| + DirCount(es)
    decreases es
  {
    if es != [] {
      var p := Child(dir, es[0].name);
      if es[0].Dir? {
        var s1 := Enforce(WatchDir(st, p), perm, p, true);
        CrawlWatchCount(s1, p, es[0].children, perm);
        CrawlWatchCount(Crawl(s1, p, es[0].children, perm), dir, es[1..], perm);
      } else {
        CrawlWatchCount(Enforce(st, perm, p, false), dir, es[1..], perm);
      }
    }
  }

  /** After the crawl each directory below `dir` carries the rule's owner and
      `dmode`, each other entry below it the rule's owner and `fmode`, and
      every path outside the snapshot is untouched. */
  lemma {:induction false} CrawlMetadataAt(st: State, dir: Path, es: seq<Entry>, perm: PermMapping, q: Path)
    requires Listed(st.fs, dir, es) && DistinctNames(es)
    requires q in st.fs
    ensures var r := Crawl(st, dir, es, perm);
      && (q in SubdirPaths(dir, es) ==> r.fs[q] == Enforced(st.fs[q], perm, true))
      && (q in FilePaths(dir, es) ==> r.fs[q] == Enforced(st.fs[q], perm, false))
      && (q !in AllPaths(dir, es) ==> r.fs[q] == st.fs[q])
    decreases es
  {
    if es != [] {
      var p := Child(dir, es[0].name);
      AllPathsSplit(dir, es);
      var inHead := q in EntryPaths(dir, es[0]);
      if inHead {
        HeadApart(dir, es, q);
      }
      if es[0].Dir? {
        var s1 := Enforce(WatchDir(st, p), perm, p, true);
        CrawlMetadataAt(s1, p, es[0].children, perm, q);
        var s2 := Crawl(s1, p, es[0].children, perm);
        CrawlMetadataAt(s2, dir, es[1..], perm, q);
        NotBelowItself(p, es[0].children);
        if inHead && q != p {
          SubdirsAreNotFiles(p, es[0].children);
        }
      } else {
        var s2 := Enforce(st, perm, p, false);
        CrawlMetadataAt(s2, dir, es[1..], perm, q);
      }
      if !inHead {
        SubdirsAreNotFiles(dir, es);
      }
    }
  }

  /** The crawl touches nothing outside the snapshot, whatever the names in it. */
  lemma {:induction false} CrawlFrame(st: State, dir: Path, es: seq<Entry>, perm: PermMapping, q: Path)
    requires Listed(st.fs, dir, es)
    requires q in st.fs && q !in AllPaths(dir, es)
    ensures Crawl(st, dir, es, perm).fs[q] == st.fs[q]
    decreases es
  {
    if es != [] {
      var p := Child(dir, es[0].name);
      AllPathsSplit(dir, es);
      if es[0].Dir? {
        var s1 := Enforce(WatchDir(st, p), perm, p, true);
        CrawlFrame(s1, p, es[0].children, perm, q);
        CrawlFrame(Crawl(s1, p, es[0].children, perm), dir, es[1..], perm, q);
      } else {
        CrawlFrame(Enforce(st, perm, p, false), dir, es[1..], perm, q);
      }
    }
  }

  /** The crawl creates and removes no entry and changes no entry's kind. */
  lemma {:induction false} CrawlKeepsEntries(st: State, dir: Path, es: seq<Entry>, perm: PermMapping)
    requires Listed(st.fs, dir, es)
    ensures SameEntries(st.fs, Crawl(st, dir, es, perm).fs)
    decreases es
  {
    if es != [] {
      var p := Child(dir, es[0].name);
      ListedSplit(st.fs, dir, es);
      if es[0].Dir? {
        var s1 := Enforce(WatchDir(st, p), perm, p, true);
        var s2 := Crawl(s1, p, es[0].children, perm);
        CrawlKeepsEntries(s1, p, es[0].children, perm);
        CrawlKeepsEntries(s2, dir, es[1..], perm);
      } else {
        CrawlKeepsEntries(Enforce(st, perm, p, false), dir, es[1..], perm);
      }
    }
  }

  /** The crawl issues exactly two metadata calls per entry below `dir`. */
  lemma {:induction false} CrawlCallCount(st: State, dir: Path, es: seq<Entry>, perm: PermMapping)
    requires Listed(st.fs, dir, es)
    ensures |Crawl(st, dir, es, perm).trace| == |st.trace| + 2 * (DirCount(es) + FileCount(es))
    decreases es
  {
    if es != [] {
      var p := Child(dir, es[0].name);
      ListedSplit(st.fs, dir, es);
      if es[0].Dir? {
        var s1 := Enforce(WatchDir(st, p), perm, p, true);
        CrawlCallCount(s1, p, es[0].children, perm);
        CrawlCallCount(Crawl(s1, p, es[0].children, perm), dir, es[1..], perm);
      } else {
        CrawlCallCount(Enforce(st, perm, p, false), dir, es[1..], perm);
      }
    }
  }

  /** The crawl's metadata calls replay to its metadata, and every one of them
      enforces the single rule `perm` it was given, owner before mode: entries
      are never re-resolved against the mapping table. */
  lemma {:induction false} CrawlTrace(st: State, dir: Path, es: seq<Entry>, perm: PermMapping)
    requires Listed(st.fs, dir, es)
    ensures var r := Crawl(st, dir, es, perm);
      && Targets(st.fs, r.trace[|st.trace|..])
      && r.fs == Replay(st.fs, r.trace[|st.trace|..])
      && EnforcesOnly(r.trace[|st.trace|..], perm)
    decreases es
  {
    var r := Crawl(st, dir, es, perm);
    if es == [] {
      assert r.trace[|st.trace|..] == [];
    } else {
      var p := Child(dir, es[0].name);
      var s1 := if es[0].Dir? then Enforce(WatchDir(st, p), perm, p, true) else Enforce(st, perm, p, false);
      var s2 := if es[0].Dir? then Crawl(s1, p, es[0].children, perm) else s1;
      assert r == Crawl(s2, dir, es[1..], perm);
      EnforceReplays(if es[0].Dir? then WatchDir(st, p) else st, perm, p, es[0].Dir?);
      var d1 := s1.trace[|st.trace|..];
      var d2 := s2.trace[|s1.trace|..];
      var d3 := r.trace[|s2.trace|..];
      if es[0].Dir? {
        CrawlTrace(s1, p, es[0].children, perm);
      } else {
        assert d2 == [];
      }
      CrawlTrace(s2, dir, es[1..], perm);
      SuffixSplit(st.trace, s1.trace, s2.trace);
      SuffixSplit(st.trace, s2.trace, r.trace);
      assert r.trace[|st.trace|..] == d1 + d2 + d3;
      TargetsAppend(st.fs, d1, d2);
      TargetsAppend(st.fs, d1 + d2, d3);
      ReplayAppend(st.fs, d1, d2);
      ReplayAppend(st.fs, d1 + d2, d3);
      EnforcesOnlyAppend(d1, d2, perm);
      EnforcesOnlyAppend(d1 + d2, d3, perm);
    }
  }

  /** Every entry below the crawled directory gets its own `chown` to the
      rule's owner among the crawl's calls. */
  lemma {:induction false} CrawlOwnsEntry(st: State, dir: Path, es: seq<Entry>, perm: PermMapping, q: Path)
    requires Listed(st.fs, dir, es)
    requires q in AllPaths(dir, es)
    ensures var r := Crawl(st, dir, es, perm);
      SetOwner(q, perm.uid, perm.gid) in r.trace[|st.trace|..]
    decreases es
  {
    var r := Crawl(st, dir, es, perm);
    var p := Child(dir, es[0].name);
    ListedSplit(st.fs, dir, es);
    AllPathsSplit(dir, es);
    var s1 := if es[0].Dir? then Enforce(WatchDir(st, p), perm, p, true) else Enforce(st, perm, p, false);
    var s2 := if es[0].Dir? then Crawl(s1, p, es[0].children, perm) else s1;
    assert r == Crawl(s2, dir, es[1..], perm);
    SuffixSplit(st.trace, s1.trace, s2.trace);
    SuffixSplit(st.trace, s2.trace, r.trace);
    var d1 := s1.trace[|st.trace|..];
    var d2 := s2.trace[|s1.trace|..];
    var d3 := r.trace[|s2.trace|..];
    assert r.trace[|st.trace|..] == d1 + d2 + d3;
    if q == p {
      assert d1[0] == SetOwner(p, perm.uid, perm.gid);
    } else if q in EntryPaths(dir, es[0]) {
      CrawlOwnsEntry(s1, p, es[0].children, perm, q);
    } else {
      CrawlOwnsEntry(s2, dir, es[1..], perm, q);
    }
  }

  /** A directory that is a configured root at startup, or that is created or
      moved in later, is watched (`add_watch`), given `perm`'s owner and directory
      mode (`chown_and_chmod`) and crawled (`crawl_path`), in that order. */
  function WatchTree(st: State, perm: PermMapping, p: Path, es: seq<Entry>): (r: State)
    requires p in st.fs && Listed(st.fs, p, es)
    ensures SameEntries(st.fs, r.fs)
    ensures st.nextWd in r.watches && r.watches[st.nextWd] == p
    ensures r.fs[p] == Enforced(st.fs[p], perm, true)
    ensures forall q :: q in SubdirPaths(p, es) ==> q in r.watches.Values
    ensures DistinctNames(es) ==>
      forall q :: q in SubdirPaths(p, es) ==> r.fs[q] == Enforced(st.fs[q], perm, true)
    ensures DistinctNames(es) ==>
      forall q :: q in FilePaths(p, es) ==> r.fs[q] == Enforced(st.fs[q], perm, false)
    ensures forall q :: q in st.fs && q != p && q !in AllPaths(p, es) ==> r.fs[q] == st.fs[q]
    ensures FreshAllocator(st) ==> |r.watches| == |st.watches| + 1 + DirCount(es)
  {
    WatchTreeFacts(st, perm, p, es);
    WatchTreeWatchesSubdirs(st, perm, p, es);
    WatchTreeMetadata(st, perm, p, es);
    Crawl(Enforce(WatchDir(st, p), perm, p, true), p, es, perm)
  }

  /** Watching, enforcing and crawling `p`, stated on the crawl itself: `p`
      gets the first handle and `dmode`, and nothing outside its tree changes. */
  lemma WatchTreeFacts(st: State, perm: PermMapping, p: Path, es: seq<Entry>)
    requires p in st.fs && Listed(st.fs, p, es)
    ensures var r := Crawl(Enforce(WatchDir(st, p), perm, p, true), p, es, perm);
      && SameEntries(st.fs, r.fs)
      && st.nextWd in r.watches && r.watches[st.nextWd] == p
      && r.fs[p] == Enforced(st.fs[p], perm, true)
      && (forall q :: q in st.fs && q != p && q !in AllPaths(p, es) ==> r.fs[q] == st.fs[q])
      && (FreshAllocator(st) ==> |r.watches| == |st.watches| + 1 + DirCount(es))
  {
    var s1 := Enforce(WatchDir(st, p), perm, p, true);
    var r := Crawl(s1, p, es, perm);
    CrawlKeepsEntries(s1, p, es, perm);
    CrawlWatchTable(s1, p, es, perm);
    NotBelowItself(p, es);
    CrawlFrame(s1, p, es, perm, p);
    forall q | q in st.fs && q != p && q !in AllPaths(p, es)
      ensures r.fs[q] == st.fs[q]
    {
      CrawlFrame(s1, p, es, perm, q);
    }
    if FreshAllocator(st) {
      CrawlWatchCount(s1, p, es, perm);
    }
  }

  /** Watching and crawling `p` watches every directory below it. */
  lemma WatchTreeWatchesSubdirs(st: State, perm: PermMapping, p: Path, es: seq<Entry>)
    requires p in st.fs && Listed(st.fs, p, es)
    ensures var r := Crawl(Enforce(WatchDir(st, p), perm, p, true), p, es, perm);
      forall q :: q in SubdirPaths(p, es) ==> q in r.watches.Values
  {
    var s1 := Enforce(WatchDir(st, p), perm, p, true);
    var r := Crawl(s1, p, es, perm);
    forall q | q in SubdirPaths(p, es)
      ensures q in r.watches.Values
    {
      var wd := CrawlWatchesEverySubdir(s1, p, es, perm, q);
    }
  }

  /** The handle under which watch-enforce-crawl of `p` watches directory `q`
      below it. */
  lemma WatchTreeHandle(st: State, perm: PermMapping, p: Path, es: seq<Entry>, q: Path) returns (wd: int)
    requires p in st.fs && Listed(st.fs, p, es)
    requires q in SubdirPaths(p, es)
    ensures var r := WatchTree(st, perm, p, es);
      wd in r.watches && r.watches[wd] == q
  {
    var s1 := Enforce(WatchDir(st, p), perm, p, true);
    wd := CrawlWatchesEverySubdir(s1, p, es, perm, q);
    assert WatchTree(st, perm, p, es) == Crawl(s1, p, es, perm);
  }

  /** Enforcing and crawling `p` gives every directory below it `dmode` and
      every file below it `fmode`, with the rule's owner, when the listing
      names no two entries alike. */
  lemma WatchTreeMetadata(st: State, perm: PermMapping, p: Path, es: seq<Entry>)
    requires p in st.fs && Listed(st.fs, p, es)
    ensures var r := Crawl(Enforce(WatchDir(st, p), perm, p, true), p, es, perm);
      DistinctNames(es) ==>
      && (forall q :: q in SubdirPaths(p, es) ==> r.fs[q] == Enforced(st.fs[q], perm, true))
      && (forall q :: q in FilePaths(p, es) ==> r.fs[q] == Enforced(st.fs[q], perm, false))
  {
    var s1 := Enforce(WatchDir(st, p), perm, p, true);
    var r := Crawl(s1, p, es, perm);
    NotBelowItself(p, es);
    if DistinctNames(es) {
      forall q | q in AllPaths(p, es)
        ensures q in SubdirPaths(p, es) ==> r.fs[q] == Enforced(st.fs[q], perm, true)
        ensures q in FilePaths(p, es) ==> r.fs[q] == Enforced(st.fs[q], perm, false)
      {
        assert q != p && q in st.fs;
        CrawlMetadataAt(s1, p, es, perm, q);
      }
    }
  }

  /** Adding a directory tree makes only calls that enforce `perm`, all on
      existing entries, and the metadata it leaves is their replay. */
  lemma WatchTreeTrace(st: State, perm: PermMapping, p: Path, es: seq<Entry>)
    requires p in st.fs && Listed(st.fs, p, es)
    ensures var r := WatchTree(st, perm, p, es);
      var delta := r.trace[|st.trace|..];
      && st.trace <= r.trace
      && Targets(st.fs, delta)
      && r.fs == Replay(st.fs, delta)
      && EnforcesOnly(delta, perm)
      && |delta| >= 2 && delta[..2] == [SetOwner(p, perm.uid, perm.gid), SetMode(p, perm.dmode)]
  {
    var s0 := WatchDir(st, p);
    var s1 := Enforce(s0, perm, p, true);
    var r := WatchTree(st, perm, p, es);
    EnforceReplays(s0, perm, p, true);
    CrawlTrace(s1, p, es, perm);
    var d1 := s1.trace[|st.trace|..];
    var d2 := r.trace[|s1.trace|..];
    SuffixSplit(st.trace, s1.trace, r.trace);
    TargetsAppend(st.fs, d1, d2);
    ReplayAppend(st.fs, d1, d2);
    EnforcesOnlyAppend(d1, d2, perm);
    assert d1 == [SetOwner(p, perm.uid, perm.gid), SetMode(p, perm.dmode)];
    assert (d1 + d2)[..2] == d1;
  }

  /** With a fresh allocator, adding a directory tree keeps the allocator fresh
      and every older watch in place. */
  lemma WatchTreeKeeps(st: State, perm: PermMapping, p: Path, es: seq<Entry>)
    requires p in st.fs && Listed(st.fs, p, es)
    ensures var r := WatchTree(st, perm, p, es);
      FreshAllocator(st) ==>
        && FreshAllocator(r)
        && (forall wd :: wd in st.watches ==> wd in r.watches && r.watches[wd] == st.watches[wd])
  {
    if FreshAllocator(st) {
      var s1 := Enforce(WatchDir(st, p), perm, p, true);
      CrawlWatchTable(s1, p, es, perm);
      CrawlWatchCount(s1, p, es, perm);
    }
  }

  /** Watch-enforce-crawl makes two calls for the directory and two for every
      entry below it, and among them a `chown` to the rule's owner for every
      such entry. */
  lemma WatchTreeCalls(st: State, perm: PermMapping, p: Path, es: seq<Entry>)
    requires p in st.fs && Listed(st.fs, p, es)
    ensures var r := WatchTree(st, perm, p, es);
      var delta := r.trace[|st.trace|..];
      && |delta| == 2 * (1 + DirCount(es) + FileCount(es))
      && forall q :: q in AllPaths(p, es) ==> SetOwner(q, perm.uid, perm.gid) in delta
  {
    var s1 := Enforce(WatchDir(st, p), perm, p, true);
    var r := WatchTree(st, perm, p, es);
    CrawlCallCount(s1, p, es, perm);
    SuffixSplit(st.trace, s1.trace, r.trace);
    forall q | q in AllPaths(p, es)
      ensures SetOwner(q, perm.uid, perm.gid) in r.trace[|st.trace|..]
    {
      CrawlOwnsEntry(s1, p, es, perm, q);
    }
  }

  /** The calls a watch-enforce-crawl of directory `p` with listing `es`
      makes under `perm`: owner and `dmode` on `p` first, two calls for every
      entry below it, among them a `chown` of each, and nothing but `perm`. */
  predicate TreeCalls(p: Path, perm: PermMapping, es: seq<Entry>, ops: seq<Op>)
  {
    && |ops| >= 2
    && ops[..2] == [SetOwner(p, perm.uid, perm.gid), SetMode(p, perm.dmode)]
    && EnforcesOnly(ops, perm)
    && |ops| == 2 * (1 + DirCount(es) + FileCount(es))
    && (forall q :: q in AllPaths(p, es) ==> SetOwner(q, perm.uid, perm.gid) in ops)
  }

  /** The calls watch-enforce-crawl appends are exactly of that shape. */
  lemma WatchTreeSegment(st: State, perm: PermMapping, p: Path, es: seq<Entry>)
    requires p in st.fs && Listed(st.fs, p, es)
    ensures TreeCalls(p, perm, es, WatchTree(st, perm, p, es).trace[|st.trace|..])
  {
    WatchTreeTrace(st, perm, p, es);
    WatchTreeCalls(st, perm, p, es);
  }

  /** `crawl_path_test`: `/tmp/foo` holding `bar/file.txt`, watched and then
      crawled, leaves two watches: the root and `bar`. */
  lemma CrawlPathExample(fs: FileSystem, perm: PermMapping)
    requires
      var foo := [RootDir, Normal("tmp"), Normal("foo")];
      foo in fs && Child(foo, "bar") in fs && Child(Child(foo, "bar"), "file.txt") in fs
    ensures
      var foo := [RootDir, Normal("tmp"), Normal("foo")];
      var listing := [Dir("bar", [File("file.txt")])];
      Listed(fs, foo, listing) &&
      |Crawl(WatchDir(Initial(fs), foo), foo, listing, perm).watches| == 2
  {
    var foo := [RootDir, Normal("tmp"), Normal("foo")];
    var listing := [Dir("bar", [File("file.txt")])];
    var bar := Child(foo, "bar");
    assert SubdirPaths(bar, []) == {} && FilePaths(bar, []) == {};
    assert SubdirPaths(bar, [File("file.txt")]) == {};
    assert FilePaths(bar, [File("file.txt")]) == {Child(bar, "file.txt")};
    assert SubdirPaths(foo, listing) == {bar};
    assert FilePaths(foo, listing) == {Child(bar, "file.txt")};
    CrawlWatchCount(WatchDir(Initial(fs), foo), foo, listing, perm);
    assert DirCount(listing) == 1;
  }
}

=== FILE: daemon.dfy ===
/** `main` without its system calls: the startup loop over the configured
    roots and the event loop, which stops once no watch is left. */
module Daemon {
  import opened Wrappers
  import opened Paths
  import opened Metadata
  import opened Policy
  import opened DaemonState
  import opened Crawler
  import opened Events

  /** Why the process ends early. The first two are the startup checks that
      call `exit(1)`; the others are panics of `unwrap`/`expect`. */
  datatype Fault =
    | MissingRoot(path: Path)
    | RootNotDirectory(path: Path)
    | UnknownWatch(wd: int)
    | VanishedEntry(under: Path)
    | ReadDirFailed(path: Path)

  /** `exit(1)` for a bad root; 101, Rust's status for a panic, otherwise. */
  function ExitStatus(f: Fault): (status: int)
    ensures status == 1 || status == 101
    ensures status == 1 <==> f.MissingRoot? || f.RootNotDirectory?
  {
    if f.MissingRoot? || f.RootNotDirectory? then 1 else 101
  }

  /** How a run ends: still blocked waiting for events once the input is used
      up, stopped because the watch table is empty, or aborted. */
  datatype Outcome = Waiting(st: State) | Stopped(st: State) | Aborted(fault: Fault)

  // ---------------------------------------------------------------- startup

  /** Root `i` passes the startup checks: it exists, it is not a regular file,
      and if it is a directory everything `read_dir` lists below it exists. */
  predicate RootOk(ms: seq<PermMapping>, fs: FileSystem, snaps: seq<seq<Entry>>, i: int)
    requires |snaps| == |ms| && 0 <= i < |ms|
  {
    var p := ms[i].path;
    && p in fs
    && fs[p].ftype != RegularFile
    && (fs[p].ftype == Directory ==> Listed(fs, p, snaps[i]))
  }

  /** The fault startup reports for a root that fails its checks. */
  function RootFault(ms: seq<PermMapping>, fs: FileSystem, i: int): Fault
    requires 0 <= i < |ms|
  {
    var p := ms[i].path;
    if p !in fs then MissingRoot(p)
    else if fs[p].ftype == RegularFile then RootNotDirectory(p)
    else VanishedEntry(p)
  }

  /** The startup loop from configured rule `i` on. A directory root is
      resolved (to the first covering rule, possibly an earlier one), watched,
      enforced with that rule's `dmode` and crawled with it; a missing root or a
      regular file ends the process; any other existing entry is skipped.
      `snaps[i]` is what `read_dir` reports below root `i`. */
  function StartupFrom(ms: seq<PermMapping>, snaps: seq<seq<Entry>>, i: int, st: State): (r: Result<State, Fault>)
    requires |snaps| == |ms| && 0 <= i <= |ms|
    ensures r.Success? ==> SameEntries(st.fs, r.value.fs) && st.trace <= r.value.trace
    ensures r.Failure? ==> r.error.MissingRoot? || r.error.RootNotDirectory? || r.error.VanishedEntry?
    decreases |ms| - i
  {
    if i == |ms| then Success(st)
    else
      var p := ms[i].path;
      if p !in st.fs then Failure(MissingRoot(p))
      else if st.fs[p].ftype == Directory then
        ConfiguredRootIsMapped(ms, i);
        var perm := MapPermission(ms, p).value;
        if !Listed(st.fs, p, snaps[i]) then Failure(VanishedEntry(p))
        else StartupFrom(ms, snaps, i + 1, WatchTree(st, perm, p, snaps[i]))
      else if st.fs[p].ftype == RegularFile then Failure(RootNotDirectory(p))
      else StartupFrom(ms, snaps, i + 1, st)
  }

  function Startup(ms: seq<PermMapping>, fs: FileSystem, snaps: seq<seq<Entry>>): (r: Result<State, Fault>)
    requires |snaps| == |ms|
    ensures r.Success? ==> SameEntries(fs, r.value.fs)
    ensures r.Failure? ==> r.error.MissingRoot? || r.error.RootNotDirectory? || r.error.VanishedEntry?
  {
    StartupFrom(ms, snaps, 0, Initial(fs))
  }

  /** Startup from root `i` on succeeds exactly when every remaining root
      passes its checks, and it changes no entry's existence or kind. */
  lemma {:induction false} StartupFromSucceeds(ms: seq<PermMapping>, fs: FileSystem, snaps: seq<seq<Entry>>, i: int, st: State)
    requires |snaps| == |ms| && 0 <= i <= |ms|
    requires SameEntries(fs, st.fs)
    ensures var r := StartupFrom(ms, snaps, i, st);
      && (r.Success? <==> forall j :: i <= j < |ms| ==> RootOk(ms, fs, snaps, j))
      && (r.Success? ==> SameEntries(fs, r.value.fs))
    decreases |ms| - i
  {
    if i < |ms| {
      var p := ms[i].path;
      var r := StartupFrom(ms, snaps, i, st);
      if p in st.fs && st.fs[p].ftype == Directory && Listed(st.fs, p, snaps[i]) {
        var perm := MapPermission(ms, p).value;
        var s2 := WatchTree(st, perm, p, snaps[i]);
        assert r == StartupFrom(ms, snaps, i + 1, s2);
        assert RootOk(ms, fs, snaps, i);
        StartupFromSucceeds(ms, fs, snaps, i + 1, s2);
        if r.Success? {
          RootsOkExtend(ms, fs, snaps, i, |ms|);
        }
      } else if p in st.fs && st.fs[p].ftype == OtherType {
        assert r == StartupFrom(ms, snaps, i + 1, st);
        assert RootOk(ms, fs, snaps, i);
        StartupFromSucceeds(ms, fs, snaps, i + 1, st);
        if r.Success? {
          RootsOkExtend(ms, fs, snaps, i, |ms|);
        }
      } else {
        assert !RootOk(ms, fs, snaps, i);
      }
    }
  }

  /** A failing startup from root `i` on stops at the first remaining root, in
      configuration order, that fails its checks, with the fault that root calls for. */
  lemma {:induction false} StartupFromFailsAt(ms: seq<PermMapping>, fs: FileSystem, snaps: seq<seq<Entry>>, i: int, st: State)
    returns (j: int)
    requires |snaps| == |ms| && 0 <= i <= |ms|
    requires SameEntries(fs, st.fs)
    requires StartupFrom(ms, snaps, i, st).Failure?
    ensures i <= j < |ms| && !RootOk(ms, fs, snaps, j)
    ensures StartupFrom(ms, snaps, i, st).error == RootFault(ms, fs, j)
    ensures forall k :: i <= k < j ==> RootOk(ms, fs, snaps, k)
    decreases |ms| - i
  {
    var p := ms[i].path;
    var r := StartupFrom(ms, snaps, i, st);
    if p in st.fs && st.fs[p].ftype == Directory && Listed(st.fs, p, snaps[i]) {
      var perm := MapPermission(ms, p).value;
      var s2 := WatchTree(st, perm, p, snaps[i]);
      assert r == StartupFrom(ms, snaps, i + 1, s2);
      assert RootOk(ms, fs, snaps, i);
      j := StartupFromFailsAt(ms, fs, snaps, i + 1, s2);
      RootsOkExtend(ms, fs, snaps, i, j);
    } else if p in st.fs && st.fs[p].ftype == OtherType {
      assert r == StartupFrom(ms, snaps, i + 1, st);
      assert RootOk(ms, fs, snaps, i);
      j := StartupFromFailsAt(ms, fs, snaps, i + 1, st);
      RootsOkExtend(ms, fs, snaps, i, j);
    } else {
      j := i;
    }
  }

  lemma RootsOkExtend(ms: seq<PermMapping>, fs: FileSystem, snaps: seq<seq<Entry>>, i: int, j: int)
    requires |snaps| == |ms| && 0 <= i < j <= |ms|
    requires RootOk(ms, fs, snaps, i)
    requires forall k :: i + 1 <= k < j ==> RootOk(ms, fs, snaps, k)
    ensures forall k :: i <= k < j ==> RootOk(ms, fs, snaps, k)
  {
  }

  /** Startup succeeds exactly when every configured root passes its checks;
      otherwise it ends on the first root, in configuration order, that does
      not, with the fault (and so the exit status) that root calls for. */
  lemma StartupOutcome(ms: seq<PermMapping>, fs: FileSystem, snaps: seq<seq<Entry>>)
    requires |snaps| == |ms|
    ensures var r := Startup(ms, fs, snaps);
      && (r.Success? <==> forall j :: 0 <= j < |ms| ==> RootOk(ms, fs, snaps, j))
      && (r.Failure? ==> exists j :: 0 <= j < |ms| && !RootOk(ms, fs, snaps, j) && r.error == RootFault(ms, fs, j)
                                     && forall k :: 0 <= k < j ==> RootOk(ms, fs, snaps, k))
      && (r.Success? ==> SameEntries(fs, r.value.fs))
  {
    StartupFromSucceeds(ms, fs, snaps, 0, Initial(fs));
    if Startup(ms, fs, snaps).Failure? {
      var j := StartupFromFailsAt(ms, fs, snaps, 0, Initial(fs));
    }
  }

  /** Startup only adds watches: handles stay fresh and every older entry stays in place. */
  lemma {:induction false} StartupFromKeeps(ms: seq<PermMapping>, snaps: seq<seq<Entry>>, i: int, st: State)
    requires |snaps| == |ms| && 0 <= i <= |ms|
    requires FreshAllocator(st)
    ensures var r := StartupFrom(ms, snaps, i, st);
      r.Success? ==>
        && FreshAllocator(r.value)
        && SameEntries(st.fs, r.value.fs)
        && (forall wd :: wd in st.watches ==> wd in r.value.watches && r.value.watches[wd] == st.watches[wd])
    decreases |ms| - i
  {
    if i < |ms| {
      var p := ms[i].path;
      if p in st.fs && st.fs[p].ftype == Directory && Listed(st.fs, p, snaps[i]) {
        var perm := MapPermission(ms, p).value;
        var s2 := WatchTree(st, perm, p, snaps[i]);
        WatchTreeKeeps(st, perm, p, snaps[i]);
        StartupFromKeeps(ms, snaps, i + 1, s2);
      } else if p in st.fs && st.fs[p].ftype == OtherType {
        StartupFromKeeps(ms, snaps, i + 1, st);
      }
    }
  }

  /** The calls of a trace cut into segments, one after the other. */
  function Concat(segs: seq<seq<Op>>): (ops: seq<Op>)
    ensures segs != [] ==> ops == segs[0] + Concat(segs[1..])
  {
    if segs == [] then [] else segs[0] + Concat(segs[1..])
  }

  lemma ConcatCons(ops: seq<Op>, segs: seq<seq<Op>>)
    ensures Concat([ops] + segs) == ops + Concat(segs)
  {
    assert ([ops] + segs)[1..] == segs;
  }

  /** The calls startup makes for configured root `k`: for a directory root,
      owner and `dmode` of the rule resolved for it on the root itself first,
      then the crawl of `snaps[k]`, which enforces that same rule on every
      entry below the root, two calls per entry and nothing else; for any
      other root, none. */
  predicate RootCalls(ms: seq<PermMapping>, fs: FileSystem, snaps: seq<seq<Entry>>, k: int, ops: seq<Op>)
    requires |snaps| == |ms| && 0 <= k < |ms|
  {
    var p := ms[k].path;
    if p in fs && fs[p].ftype == Directory then
      && MapPermission(ms, p).Some?
      && TreeCalls(p, MapPermission(ms, p).value, snaps[k], ops)
    else ops == []
  }

  /** Two runs of calls, one after the other, compose: the first from `fs0`
      leaves `fs1`, the rest from `fs1` leaves the final metadata. */
  lemma TraceCons(fs0: FileSystem, t0: seq<Op>, fs1: FileSystem, t1: seq<Op>, fs2: FileSystem, t2: seq<Op>, rest: seq<seq<Op>>)
    requires t0 <= t1 && Targets(fs0, t1[|t0|..]) && fs1 == Replay(fs0, t1[|t0|..]) && fs1.Keys == fs0.Keys
    requires t1 <= t2 && t2[|t1|..] == Concat(rest) && Targets(fs1, Concat(rest)) && fs2 == Replay(fs1, Concat(rest))
    ensures t0 <= t2
    ensures t2[|t0|..] == Concat([t1[|t0|..]] + rest)
    ensures Targets(fs0, Concat([t1[|t0|..]] + rest))
    ensures fs2 == Replay(fs0, Concat([t1[|t0|..]] + rest))
  {
    var d1 := t1[|t0|..];
    ConcatCons(d1, rest);
    SuffixSplit(t0, t1, t2);
    TargetsSameKeys(fs1, fs0, Concat(rest));
    TargetsAppend(fs0, d1, Concat(rest));
    ReplayAppend(fs0, d1, Concat(rest));
  }

  /** Segment `k` holds the calls root `i + k` calls for, for every segment. */
  predicate RootsCalls(ms: seq<PermMapping>, fs: FileSystem, snaps: seq<seq<Entry>>, i: int, segs: seq<seq<Op>>)
    requires |snaps| == |ms| && 0 <= i && i + |segs| <= |ms|
    decreases |segs|
  {
    segs != [] ==> RootCalls(ms, fs, snaps, i, segs[0]) && RootsCalls(ms, fs, snaps, i + 1, segs[1..])
  }

  /** Root `i`'s calls followed by those of the roots after it. */
  lemma RootCallsCons(ms: seq<PermMapping>, fs: FileSystem, snaps: seq<seq<Entry>>, i: int, ops: seq<Op>, rest: seq<seq<Op>>)
    requires |snaps| == |ms| && 0 <= i < |ms| && |rest| == |ms| - i - 1
    requires RootCalls(ms, fs, snaps, i, ops)
    requires RootsCalls(ms, fs, snaps, i + 1, rest)
    ensures RootsCalls(ms, fs, snaps, i, [ops] + rest)
  {
    assert ([ops] + rest)[1..] == rest;
  }

  /** Each segment holds its own root's calls: root `j`'s are segment `j - i`. */
  lemma {:induction false} RootsCallsAt(ms: seq<PermMapping>, fs: FileSystem, snaps: seq<seq<Entry>>, i: int, segs: seq<seq<Op>>, j: int)
    requires |snaps| == |ms| && 0 <= i <= j < i + |segs| && i + |segs| <= |ms|
    requires RootsCalls(ms, fs, snaps, i, segs)
    ensures RootCalls(ms, fs, snaps, j, segs[j - i])
    decreases j - i
  {
    if j == i {
      assert segs[j - i] == segs[0];
    } else {
      RootsCallsAt(ms, fs, snaps, i + 1, segs[1..], j);
      assert segs[1..][j - (i + 1)] == segs[j - i];
    }
  }

  /** `segs` are the calls startup makes from root `i` on, taking `st` to
      `fin`: appended to the trace in order, each to an existing entry,
      replaying to the final metadata, segment `k` being root `i + k`'s calls. */
  predicate SegmentsFrom(ms: seq<PermMapping>, fs: FileSystem, snaps: seq<seq<Entry>>, i: int, st: State, fin: State, segs: seq<seq<Op>>)
    requires |snaps| == |ms| && 0 <= i <= |ms|
  {
    && |segs| == |ms| - i
    && st.trace <= fin.trace
    && fin.trace[|st.trace|..] == Concat(segs)
    && Targets(st.fs, Concat(segs))
    && fin.fs == Replay(st.fs, Concat(segs))
    && RootsCalls(ms, fs, snaps, i, segs)
  }

  /** The calls startup makes from root `i` on are, root by root in
      configuration order, the calls each root calls for. */
  lemma {:induction false} StartupFromTrace(ms: seq<PermMapping>, fs: FileSystem, snaps: seq<seq<Entry>>, i: int, st: State)
    returns (segs: seq<seq<Op>>)
    requires |snaps| == |ms| && 0 <= i <= |ms|
    requires SameEntries(fs, st.fs)
    ensures var r := StartupFrom(ms, snaps, i, st);
      r.Success? ==> SegmentsFrom(ms, fs, snaps, i, st, r.value, segs)
    decreases |ms| - i, 1
  {
    if i == |ms| {
      segs := [];
      var r := StartupFrom(ms, snaps, i, st);
      assert r.value.trace[|st.trace|..] == [];
    } else {
      var p := ms[i].path;
      if p in st.fs && st.fs[p].ftype == Directory && Listed(st.fs, p, snaps[i]) {
        segs := DirRootTrace(ms, fs, snaps, i, st);
      } else if p in st.fs && st.fs[p].ftype == OtherType {
        segs := OtherRootTrace(ms, fs, snaps, i, st);
      } else {
        segs := [];
      }
    }
  }

  /** The calls of a directory root's watch-enforce-crawl are the calls that
      root calls for. */
  lemma DirRootCalls(ms: seq<PermMapping>, fs: FileSystem, snaps: seq<seq<Entry>>, i: int, st: State)
    requires |snaps| == |ms| && 0 <= i < |ms|
    requires SameEntries(fs, st.fs)
    requires ms[i].path in st.fs && st.fs[ms[i].path].ftype == Directory && Listed(st.fs, ms[i].path, snaps[i])
    ensures MapPermission(ms, ms[i].path).Some?
    ensures var p := ms[i].path;
      var s2 := WatchTree(st, MapPermission(ms, p).value, p, snaps[i]);
      RootCalls(ms, fs, snaps, i, s2.trace[|st.trace|..])
  {
    var p := ms[i].path;
    ConfiguredRootIsMapped(ms, i);
    var perm := MapPermission(ms, p).value;
    WatchTreeSegment(st, perm, p, snaps[i]);
  }

  /** A directory root: its own calls, from watch-enforce-crawl, then those
      of the roots after it. */
  lemma {:induction false} DirRootTrace(ms: seq<PermMapping>, fs: FileSystem, snaps: seq<seq<Entry>>, i: int, st: State)
    returns (segs: seq<seq<Op>>)
    requires |snaps| == |ms| && 0 <= i < |ms|
    requires SameEntries(fs, st.fs)
    requires ms[i].path in st.fs && st.fs[ms[i].path].ftype == Directory && Listed(st.fs, ms[i].path, snaps[i])
    ensures var r := StartupFrom(ms, snaps, i, st);
      r.Success? ==> SegmentsFrom(ms, fs, snaps, i, st, r.value, segs)
    decreases |ms| - i, 0
  {
    var p := ms[i].path;
    ConfiguredRootIsMapped(ms, i);
    var perm := MapPermission(ms, p).value;
    var s2 := WatchTree(st, perm, p, snaps[i]);
    var r := StartupFrom(ms, snaps, i, st);
    assert r == StartupFrom(ms, snaps, i + 1, s2);
    var rest := StartupFromTrace(ms, fs, snaps, i + 1, s2);
    var d1 := s2.trace[|st.trace|..];
    segs := [d1] + rest;
    if r.Success? {
      WatchTreeTrace(st, perm, p, snaps[i]);
      TraceCons(st.fs, st.trace, s2.fs, s2.trace, r.value.fs, r.value.trace, rest);
      DirRootCalls(ms, fs, snaps, i, st);
      RootCallsCons(ms, fs, snaps, i, d1, rest);
    }
  }

  /** A root that is neither file nor directory: no calls of its own, then
      those of the roots after it. */
  lemma {:induction false} OtherRootTrace(ms: seq<PermMapping>, fs: FileSystem, snaps: seq<seq<Entry>>, i: int, st: State)
    returns (segs: seq<seq<Op>>)
    requires |snaps| == |ms| && 0 <= i < |ms|
    requires SameEntries(fs, st.fs)
    requires ms[i].path in st.fs && st.fs[ms[i].path].ftype == OtherType
    ensures var r := StartupFrom(ms, snaps, i, st);
      r.Success? ==> SegmentsFrom(ms, fs, snaps, i, st, r.value, segs)
    decreases |ms| - i, 0
  {
    var p := ms[i].path;
    var r := StartupFrom(ms, snaps, i, st);
    assert r == StartupFrom(ms, snaps, i + 1, st);
    var rest := StartupFromTrace(ms, fs, snaps, i + 1, st);
    segs := [[]] + rest;
    if r.Success? {
      ConcatCons([], rest);
      assert p in fs && fs[p].ftype == OtherType;
      assert RootCalls(ms, fs, snaps, i, []);
      RootCallsCons(ms, fs, snaps, i, [], rest);
    }
  }

  /** What a successful startup does to metadata: its calls are, root by root
      in configuration order, owner and `dmode` of the first matching rule on
      each directory root followed by that rule's enforcement of its tree, and
      nothing for other roots; every call targets an existing entry, and the
      resulting metadata is their replay from the initial filesystem. */
  lemma StartupTrace(ms: seq<PermMapping>, fs: FileSystem, snaps: seq<seq<Entry>>) returns (segs: seq<seq<Op>>)
    requires |snaps| == |ms|
    ensures var r := Startup(ms, fs, snaps);
      r.Success? ==>
        && |segs| == |ms|
        && r.value.trace == Concat(segs)
        && Targets(fs, r.value.trace)
        && r.value.fs == Replay(fs, r.value.trace)
        && forall k :: 0 <= k < |ms| ==> RootCalls(ms, fs, snaps, k, segs[k])
  {
    segs := StartupFromTrace(ms, fs, snaps, 0, Initial(fs));
    var r := Startup(ms, fs, snaps);
    if r.Success? {
      assert SegmentsFrom(ms, fs, snaps, 0, Initial(fs), r.value, segs);
      assert r.value.trace[0..] == r.value.trace;
      forall k | 0 <= k < |ms| ensures RootCalls(ms, fs, snaps, k, segs[k]) {
        RootsCallsAt(ms, fs, snaps, 0, segs, k);
      }
    }
  }

  /** After a successful startup every configured directory root from `i` on is watched. */
  lemma {:induction false} StartupFromWatches(ms: seq<PermMapping>, snaps: seq<seq<Entry>>, i: int, st: State, j: int)
    requires |snaps| == |ms| && 0 <= i <= j < |ms|
    requires FreshAllocator(st)
    requires ms[j].path in st.fs && st.fs[ms[j].path].ftype == Directory
    ensures var r := StartupFrom(ms, snaps, i, st);
      r.Success? ==> ms[j].path in r.value.watches.Values
    decreases |ms| - i
  {
    var p := ms[i].path;
    var r := StartupFrom(ms, snaps, i, st);
    if p in st.fs && st.fs[p].ftype == Directory && Listed(st.fs, p, snaps[i]) {
      var perm := MapPermission(ms, p).value;
      var s2 := WatchTree(st, perm, p, snaps[i]);
      assert r == StartupFrom(ms, snaps, i + 1, s2);
      WatchTreeKeeps(st, perm, p, snaps[i]);
      if j == i {
        StartupFromKeeps(ms, snaps, i + 1, s2);
        if r.Success? {
          assert r.value.watches[st.nextWd] == p;
        }
      } else {
        StartupFromWatches(ms, snaps, i + 1, s2, j);
      }
    } else if p in st.fs && st.fs[p].ftype == OtherType {
      StartupFromWatches(ms, snaps, i + 1, st, j);
    }
  }

  /** After a successful startup every directory below a configured
      directory root from `i` on, as its listing shows it, is watched. */
  lemma {:induction false} StartupFromWatchesBelow(ms: seq<PermMapping>, snaps: seq<seq<Entry>>, i: int, st: State, j: int, q: Path)
    requires |snaps| == |ms| && 0 <= i <= j < |ms|
    requires FreshAllocator(st)
    requires ms[j].path in st.fs && st.fs[ms[j].path].ftype == Directory
    requires q in SubdirPaths(ms[j].path, snaps[j])
    ensures var r := StartupFrom(ms, snaps, i, st);
      r.Success? ==> q in r.value.watches.Values
    decreases |ms| - i
  {
    var p := ms[i].path;
    var r := StartupFrom(ms, snaps, i, st);
    if p in st.fs && st.fs[p].ftype == Directory && Listed(st.fs, p, snaps[i]) {
      var perm := MapPermission(ms, p).value;
      var s2 := WatchTree(st, perm, p, snaps[i]);
      assert r == StartupFrom(ms, snaps, i + 1, s2);
      WatchTreeKeeps(st, perm, p, snaps[i]);
      if j == i {
        StartupFromKeeps(ms, snaps, i + 1, s2);
        var wd := WatchTreeHandle(st, perm, p, snaps[i], q);
        if r.Success? {
          assert r.value.watches[wd] == q;
        }
      } else {
        StartupFromWatchesBelow(ms, snaps, i + 1, s2, j, q);
      }
    } else if p in st.fs && st.fs[p].ftype == OtherType {
      StartupFromWatchesBelow(ms, snaps, i + 1, st, j, q);
    }
  }

  lemma StartupWatchesRoots(ms: seq<PermMapping>, fs: FileSystem, snaps: seq<seq<Entry>>)
    requires |snaps| == |ms|
    ensures var r := Startup(ms, fs, snaps);
      r.Success? ==>
        && FreshAllocator(r.value)
        && (forall j :: 0 <= j < |ms| && ms[j].path in fs && fs[ms[j].path].ftype == Directory ==>
             ms[j].path in r.value.watches.Values)
        && (forall j, q ::
             0 <= j < |ms| && ms[j].path in fs && fs[ms[j].path].ftype == Directory && q in SubdirPaths(ms[j].path, snaps[j])
             ==> q in r.value.watches.Values)
  {
    StartupFromKeeps(ms, snaps, 0, Initial(fs));
    forall j | 0 <= j < |ms| && ms[j].path in fs && fs[ms[j].path].ftype == Directory
      ensures var r := Startup(ms, fs, snaps); r.Success? ==> ms[j].path in r.value.watches.Values
    {
      StartupFromWatches(ms, snaps, 0, Initial(fs), j);
    }
    forall j, q | 0 <= j < |ms| && ms[j].path in fs && fs[ms[j].path].ftype == Directory &&
      q in SubdirPaths(ms[j].path, snaps[j])
      ensures var r := Startup(ms, fs, snaps); r.Success? ==> q in r.value.watches.Values
    {
      StartupFromWatchesBelow(ms, snaps, 0, Initial(fs), j, q);
    }
  }

  // ------------------------------------------------------------- event loop

  /** The filesystem as the daemon finds it when it gets to `inp`. */
  function Arrive(st: State, inp: Input): State
  {
    st.(fs := ApplyChange(st.fs, inp.change))
  }

  /** The panic the loop body hits on an event it cannot handle: an unknown
      handle, a new "directory" that is no longer one when `read_dir` opens it,
      or an entry that vanished before its `chown`. */
  function EventFault(st: State, ev: Event): Fault
  {
    if ev.wd !in st.watches then UnknownWatch(ev.wd)
    else
      var p := EventPath(st.watches, ev);
      if Has(ev.mask, IN_ISDIR) && p in st.fs && st.fs[p].ftype != Directory then ReadDirFailed(p)
      else VanishedEntry(p)
  }

  /** One batch from `read_events_blocking`, handled event by event in
      delivery order. Emptiness of the table is not looked at inside a batch. */
  function RunBatch(ms: seq<PermMapping>, st: State, evs: seq<Input>): (r: Result<State, Fault>)
    ensures r.Failure? ==> ExitStatus(r.error) == 101
    ensures evs != [] && !CanHandle(ms, Arrive(st, evs[0]), evs[0]) ==>
      r == Failure(EventFault(Arrive(st, evs[0]), evs[0].event))
    ensures r.Success? && FreshAllocator(st) ==> FreshAllocator(r.value)
    decreases |evs|
  {
    if evs == [] then Success(st)
    else
      var s := Arrive(st, evs[0]);
      if !CanHandle(ms, s, evs[0]) then Failure(EventFault(s, evs[0].event))
      else
        StepInvariant(ms, s, evs[0]);
        RunBatch(ms, Step(ms, s, evs[0]), evs[1..])
  }

  /** The event loop: before each batch, an empty watch table stops the loop;
      otherwise the next batch is handled. When the input runs out with
      watches left, the daemon is still waiting for events. */
  function Run(ms: seq<PermMapping>, st: State, batches: seq<seq<Input>>): (r: Outcome)
    ensures st.watches == map[] ==> r == Stopped(st)
    ensures r.Stopped? ==> r.st.watches == map[]
    ensures r.Waiting? ==> r.st.watches != map[]
    ensures r.Aborted? ==> ExitStatus(r.fault) == 101
    ensures !r.Aborted? && FreshAllocator(st) ==> FreshAllocator(r.st)
    decreases |batches|
  {
    if st.watches == map[] then Stopped(st)
    else if batches == [] then Waiting(st)
    else
      match RunBatch(ms, st, batches[0])
      case Failure(f) => Aborted(f)
      case Success(s) => Run(ms, s, batches[1..])
  }

  /** A batch handles its first event, then the rest from the resulting state. */
  lemma RunBatchFirst(ms: seq<PermMapping>, st: State, inp: Input, rest: seq<Input>)
    requires CanHandle(ms, Arrive(st, inp), inp)
    ensures RunBatch(ms, st, [inp] + rest) == RunBatch(ms, Step(ms, Arrive(st, inp), inp), rest)
  {
    assert ([inp] + rest)[1..] == rest;
  }

  /** `watches.get(&wd_id).unwrap()`: an event on a handle the table does not
      hold ends the batch, and the process, with a panic. */
  lemma UnknownWatchPanics(ms: seq<PermMapping>, st: State, evs: seq<Input>)
    requires evs != [] && evs[0].event.wd !in st.watches
    ensures RunBatch(ms, st, evs) == Failure(UnknownWatch(evs[0].event.wd))
    ensures ExitStatus(RunBatch(ms, st, evs).error) == 101
  {
  }

  /** `fs::read_dir(path).expect(..)` at the start of `crawl_path`: a covered
      `IN_ISDIR` creation whose path, by the time it is handled, exists but is
      not a directory is watched and enforced and then panics on `read_dir`. */
  lemma NotADirectoryPanics(ms: seq<PermMapping>, st: State, evs: seq<Input>)
    requires evs != []
    requires var s := Arrive(st, evs[0]);
      var ev := evs[0].event;
      && ev.wd in s.watches && IsCreation(ev.mask) && Has(ev.mask, IN_ISDIR)
      && var p := EventPath(s.watches, ev);
         MapPermission(ms, p).Some? && p in s.fs && s.fs[p].ftype != Directory
    ensures RunBatch(ms, st, evs) == Failure(ReadDirFailed(EventPath(st.watches, evs[0].event)))
    ensures ExitStatus(RunBatch(ms, st, evs).error) == 101
  {
  }

  /** With watches left, the loop handles the next batch in full and carries on from there. */
  lemma RunNextBatch(ms: seq<PermMapping>, st: State, b: seq<Input>, rest: seq<seq<Input>>, s: State)
    requires st.watches != map[]
    requires RunBatch(ms, st, b) == Success(s)
    ensures Run(ms, st, [b] + rest) == Run(ms, s, rest)
  {
    assert ([b] + rest)[1..] == rest;
  }

  /** The whole daemon: startup over the configured roots, then the event loop.
      An exit status of 1 only ever comes from a configured root that is
      missing or is a regular file. */
  function RunDaemon(ms: seq<PermMapping>, fs: FileSystem, snaps: seq<seq<Entry>>, batches: seq<seq<Input>>): (r: Outcome)
    requires |snaps| == |ms|
    ensures r.Aborted? && ExitStatus(r.fault) == 1 ==>
      exists j :: 0 <= j < |ms| && (ms[j].path !in fs || fs[ms[j].path].ftype == RegularFile)
    ensures (forall j :: 0 <= j < |ms| ==> RootOk(ms, fs, snaps, j)) ==> !(r.Aborted? && ExitStatus(r.fault) == 1)
  {
    StartupOutcome(ms, fs, snaps);
    match Startup(ms, fs, snaps)
    case Failure(f) => Aborted(f)
    case Success(st) => Run(ms, st, batches)
  }

  /** An event on a path no rule covers is skipped: no watch, no metadata
      call, and the batch goes on with the next event. */
  lemma UnmappedEventIsSkipped(ms: seq<PermMapping>, st: State, inp: Input, rest: seq<Input>)
    requires inp.event.wd in st.watches
    requires IsCreation(inp.event.mask)
    requires MapPermission(ms, EventPath(st.watches, inp.event)).None?
    ensures RunBatch(ms, st, [inp] + rest) == RunBatch(ms, Arrive(st, inp), rest)
  {
    assert ([inp] + rest)[1..] == rest;
  }

  /** Invalidation of two distinct watched handles, in one batch, shrinks the
      table by exactly two: a removed directory and the watched directory
      nested in it both leave the table. */
  lemma TwoInvalidationsShrinkByTwo(ms: seq<PermMapping>, st: State, a: Input, b: Input)
    requires a.event.wd in st.watches && b.event.wd in st.watches && a.event.wd != b.event.wd
    requires a.event.mask == IN_IGNORED && b.event.mask == IN_IGNORED
    ensures var r := RunBatch(ms, st, [a, b]);
      r.Success? && |r.value.watches| == |st.watches| - 2
      && r.value.watches.Keys == st.watches.Keys - {a.event.wd, b.event.wd}
  {
    IgnoredIsInvalidation();
    var s0 := Arrive(st, a);
    assert CanHandle(ms, s0, a);
    var s1 := Step(ms, s0, a);
    assert s1.watches.Keys == st.watches.Keys - {a.event.wd};
    var s2 := Arrive(s1, b);
    assert CanHandle(ms, s2, b);
    var s3 := Step(ms, s2, b);
    assert s3.watches.Keys == st.watches.Keys - {a.event.wd, b.event.wd};
    assert [a, b][1..] == [b];
    assert [b][1..] == [];
    assert RunBatch(ms, st, [a, b]) == RunBatch(ms, s1, [b]);
    assert RunBatch(ms, s1, [b]) == Success(s3);
    assert |s1.watches| == |st.watches| - 1;
  }
}

=== FILE: events.dfy ===
/** inotify events and the body of the event loop: one event, one state change. */
module Events {
  import opened Wrappers
  import opened Paths
  import opened Metadata
  import opened Policy
  import opened Watches
  import opened DaemonState
  import opened Crawler

  /** The bits of an inotify event mask the loop tests, as Linux defines them. */
  const IN_MOVED_TO: bv32 := 0x0000_0080
  const IN_CREATE: bv32 := 0x0000_0100
  const IN_DELETE: bv32 := 0x0000_0200
  const IN_IGNORED: bv32 := 0x0000_8000
  const IN_ISDIR: bv32 := 0x4000_0000

  /** `mask.contains(flag)`: every bit of `flag` is set in `mask`. */
  predicate Has(mask: bv32, flag: bv32): (b: bool)
    ensures b <==> mask | flag == mask
  {
    mask & flag == flag
  }

  /** An entry was created in, or moved into, a watched directory. */
  predicate IsCreation(mask: bv32): (b: bool)
    ensures b <==> mask & (IN_CREATE | IN_MOVED_TO) != 0
  {
    Has(mask, IN_CREATE) || Has(mask, IN_MOVED_TO)
  }

  /** An `IN_IGNORED` event is neither a creation nor a deletion. */
  lemma IgnoredIsInvalidation()
    ensures !IsCreation(IN_IGNORED) && !Has(IN_IGNORED, IN_DELETE) && Has(IN_IGNORED, IN_IGNORED)
  {
  }

  /** One inotify event: the watch it arrived on, its mask and the entry name, if any. */
  datatype Event = Event(wd: int, mask: bv32, name: Option<string>)

  /** What other processes did to the filesystem before an event is handled:
      entries removed, then entries created or replaced. */
  datatype Change = Change(removed: set<Path>, added: FileSystem)

  function ApplyChange(fs: FileSystem, c: Change): (r: FileSystem)
    ensures r.Keys == (fs.Keys - c.removed) + c.added.Keys
  {
    (fs - c.removed) + c.added
  }

  /** One event as the daemon meets it: the filesystem change that preceded it,
      the event, and what `read_dir` reports, at the moment it is handled, for
      the directory it names (only a directory creation reads it). */
  datatype Input = Input(change: Change, event: Event, listing: seq<Entry>)

  /** The path an event is about: the watched directory joined with the entry
      name, or the watched directory itself when the event carries no name. */
  function EventPath(t: WatchTable, ev: Event): (p: Path)
    requires ev.wd in t
    ensures StartsWith(p, t[ev.wd])
    ensures ev.name.None? ==> p == t[ev.wd]
    ensures ev.name.Some? && ev.name.value != [] ==> p == Child(t[ev.wd], ev.name.value)
  {
    Join(t[ev.wd], ev.name)
  }

  /** The loop body handles this event without panicking: the handle is in the
      table (`watches.get(&wd_id).unwrap()`), and when a rule applies to a new
      entry that entry still exists for `add_watch` and `chown_and_chmod`; for
      an `IN_ISDIR` event it is still a directory, so `read_dir` succeeds, and
      everything `read_dir` lists in it still exists. */
  predicate CanHandle(ms: seq<PermMapping>, st: State, inp: Input)
  {
    && inp.event.wd in st.watches
    && var p := EventPath(st.watches, inp.event);
       (IsCreation(inp.event.mask) && MapPermission(ms, p).Some? ==>
          && p in st.fs
          && (Has(inp.event.mask, IN_ISDIR) ==> st.fs[p].ftype == Directory && Listed(st.fs, p, inp.listing)))
  }

  /** The loop body for one event. The mask is tested in a fixed order:
      creation or move-in first, then deletion, then invalidation. */
  function Step(ms: seq<PermMapping>, st: State, inp: Input): (r: State)
    requires CanHandle(ms, st, inp)
    ensures SameEntries(st.fs, r.fs)
    ensures var ev := inp.event;
      var p := EventPath(st.watches, ev);
      var m := MapPermission(ms, p);
      && (IsCreation(ev.mask) && m.None? ==> r == st)
      && (IsCreation(ev.mask) && m.Some? && Has(ev.mask, IN_ISDIR) ==>
            && st.nextWd in r.watches && r.watches[st.nextWd] == p
            && r.fs[p] == Enforced(st.fs[p], m.value, true)
            && (forall q :: q in SubdirPaths(p, inp.listing) ==> q in r.watches.Values)
            && (DistinctNames(inp.listing) ==>
                  && (forall q :: q in SubdirPaths(p, inp.listing) ==> r.fs[q] == Enforced(st.fs[q], m.value, true))
                  && (forall q :: q in FilePaths(p, inp.listing) ==> r.fs[q] == Enforced(st.fs[q], m.value, false)))
            && (forall q :: q in st.fs && q != p && q !in AllPaths(p, inp.listing) ==> r.fs[q] == st.fs[q])
            && (FreshAllocator(st) ==> |r.watches| == |st.watches| + 1 + DirCount(inp.listing))
            && (FreshAllocator(st) ==>
                  forall wd :: wd in st.watches ==> wd in r.watches && r.watches[wd] == st.watches[wd]))
      && (IsCreation(ev.mask) && m.Some? && !Has(ev.mask, IN_ISDIR) ==>
            && r.watches == st.watches
            && r.fs[p] == Enforced(st.fs[p], m.value, false)
            && (forall q :: q in st.fs && q != p ==> r.fs[q] == st.fs[q]))
      && (!IsCreation(ev.mask) && Has(ev.mask, IN_DELETE) ==> r == st)
      && (!IsCreation(ev.mask) && !Has(ev.mask, IN_DELETE) && Has(ev.mask, IN_IGNORED) ==>
            && r.watches.Keys == st.watches.Keys - {ev.wd}
            && (forall w :: w in r.watches ==> r.watches[w] == st.watches[w])
            && r.fs == st.fs && r.trace == st.trace)
      && (!IsCreation(ev.mask) && !Has(ev.mask, IN_DELETE) && !Has(ev.mask, IN_IGNORED) ==> r == st)
  {
    var ev := inp.event;
    var p := EventPath(st.watches, ev);
    if IsCreation(ev.mask) then
      match MapPermission(ms, p)
      case None => st
      case Some(perm) =>
        if Has(ev.mask, IN_ISDIR) then
          WatchTreeKeeps(st, perm, p, inp.listing);
          WatchTree(st, perm, p, inp.listing)
        else
          Enforce(st, perm, p, false)
    else if Has(ev.mask, IN_DELETE) then
      st
    else if Has(ev.mask, IN_IGNORED) then
      st.(watches := Remove(st.watches, ev.wd))
    else
      st
  }

  /** The invariants every event preserves: handles stay fresh, the trace only
      grows, the metadata is the replay of the calls recorded, and every call
      enforces the rule resolved for the event's path (none when no rule applies). */
  lemma StepInvariant(ms: seq<PermMapping>, st: State, inp: Input)
    requires CanHandle(ms, st, inp)
    ensures var r := Step(ms, st, inp);
      var delta := r.trace[|st.trace|..];
      var m := MapPermission(ms, EventPath(st.watches, inp.event));
      && (FreshAllocator(st) ==> FreshAllocator(r))
      && st.trace <= r.trace
      && Targets(st.fs, delta)
      && r.fs == Replay(st.fs, delta)
      && (IsCreation(inp.event.mask) && m.Some? ==> EnforcesOnly(delta, m.value))
      && (!IsCreation(inp.event.mask) || m.None? ==> delta == [])
  {
    var ev := inp.event;
    var p := EventPath(st.watches, ev);
    var r := Step(ms, st, inp);
    var m := MapPermission(ms, p);
    if IsCreation(ev.mask) && m.Some? {
      var perm := m.value;
      if Has(ev.mask, IN_ISDIR) {
        WatchTreeTrace(st, perm, p, inp.listing);
        WatchTreeKeeps(st, perm, p, inp.listing);
      } else {
        EnforceReplays(st, perm, p, false);
      }
    } else {
      assert r.trace == st.trace;
      assert r.trace[|st.trace|..] == [];
    }
  }
}

=== FILE: metadata.dfy ===
/** The metadata the daemon reads and writes: owner, group and mode of every
    existing entry, and the record of the `chown`/`chmod` calls it made. */
module Metadata {
  import opened Paths

  /** Rust's `u32`, the type of uids, gids and modes in the configuration. */
  type u32 = x: int | 0 <= x < 0x1_0000_0000

  /** What `is_dir`/`is_file` report for an existing entry (after following links). */
  datatype FileType = Directory | RegularFile | OtherType

  datatype Meta = Meta(ftype: FileType, uid: u32, gid: u32, mode: u32)

  /** The existing entries and their metadata; a path absent from the map does not exist. */
  type FileSystem = map<Path, Meta>

  /** `b` has exactly the entries of `a`, each of the same kind: only owners
      and modes may differ. */
  predicate SameEntries(a: FileSystem, b: FileSystem)
  {
    a.Keys == b.Keys && forall q :: q in a ==> b[q].ftype == a[q].ftype
  }

  /** One metadata system call, as the daemon issues it. */
  datatype Op =
    | SetOwner(path: Path, uid: u32, gid: u32)
    | SetMode(path: Path, mode: u32)

  /** `chown(path, Some(uid), Some(gid))` on an existing entry. */
  function Chown(fs: FileSystem, p: Path, uid: u32, gid: u32): (r: FileSystem)
    requires p in fs
    ensures r.Keys == fs.Keys
    ensures r[p].uid == uid && r[p].gid == gid
    ensures r[p].ftype == fs[p].ftype && r[p].mode == fs[p].mode
    ensures forall q :: q in fs && q != p ==> r[q] == fs[q]
  {
    fs[p := fs[p].(uid := uid, gid := gid)]
  }

  /** `set_permissions(path, Permissions::from_mode(mode))` on an existing entry. */
  function Chmod(fs: FileSystem, p: Path, mode: u32): (r: FileSystem)
    requires p in fs
    ensures r.Keys == fs.Keys
    ensures r[p].mode == mode
    ensures r[p].ftype == fs[p].ftype && r[p].uid == fs[p].uid && r[p].gid == fs[p].gid
    ensures forall q :: q in fs && q != p ==> r[q] == fs[q]
  {
    fs[p := fs[p].(mode := mode)]
  }

  function ApplyOp(fs: FileSystem, op: Op): (r: FileSystem)
    requires op.path in fs
    ensures r.Keys == fs.Keys
  {
    match op
    case SetOwner(p, uid, gid) => Chown(fs, p, uid, gid)
    case SetMode(p, mode) => Chmod(fs, p, mode)
  }

  /** Every call in `ops` names an entry of `fs`. */
  predicate Targets(fs: FileSystem, ops: seq<Op>)
  {
    forall i :: 0 <= i < |ops| ==> ops[i].path in fs
  }

  /** The filesystem after the calls `ops`, issued in order. This is the
      reference the daemon's state is checked against: its metadata is always
      the replay of the calls it recorded. */
  function Replay(fs: FileSystem, ops: seq<Op>): (r: FileSystem)
    requires Targets(fs, ops)
    ensures r.Keys == fs.Keys
    decreases |ops|
  {
    if ops == [] then fs else Replay(ApplyOp(fs, ops[0]), ops[1..])
  }

  /** Replaying two call sequences one after the other is replaying their concatenation. */
  lemma {:induction false} ReplayAppend(fs: FileSystem, a: seq<Op>, b: seq<Op>)
    requires Targets(fs, a + b)
    ensures Targets(fs, a) && Targets(Replay(fs, a), b)
    ensures Replay(fs, a + b) == Replay(Replay(fs, a), b)
    decreases |a|
  {
    assert Targets(fs, a) by {
      forall i | 0 <= i < |a| ensures a[i].path in fs {
        assert (a + b)[i] == a[i];
      }
    }
    assert Targets(Replay(fs, a), b) by {
      forall i | 0 <= i < |b| ensures b[i].path in Replay(fs, a) {
        assert (a + b)[|a| + i] == b[i];
      }
    }
    if a != [] {
      var fs1 := ApplyOp(fs, a[0]);
      assert (a + b)[1..] == a[1..] + b;
      ReplayAppend(fs1, a[1..], b);
    } else {
      assert a + b == b;
    }
  }

  /** Whether calls target existing entries depends only on which entries exist. */
  lemma TargetsSameKeys(a: FileSystem, b: FileSystem, ops: seq<Op>)
    requires a.Keys == b.Keys && Targets(a, ops)
    ensures Targets(b, ops)
  {
    forall i | 0 <= i < |ops| ensures ops[i].path in b {
      assert ops[i].path in a.Keys;
    }
  }

  lemma TargetsAppend(fs: FileSystem, a: seq<Op>, b: seq<Op>)
    requires Targets(fs, a) && Targets(fs, b)
    ensures Targets(fs, a + b)
  {
    forall i | 0 <= i < |a + b| ensures (a + b)[i].path in fs {
      if i >= |a| {
        assert (a + b)[i] == b[i - |a|];
      }
    }
  }

  /** The part of trace `c` recorded after `a`, cut where `b` ended. */
  lemma SuffixSplit(a: seq<Op>, b: seq<Op>, c: seq<Op>)
    requires a <= b <= c
    ensures c[|a|..] == b[|a|..] + c[|b|..]
  {
  }
}

=== FILE: paths.dfy ===
/** Filesystem paths as sequences of components, the view `std::path::Path`
    takes when it compares paths. */
module Paths {
  import opened Wrappers

  /** One component of a parsed path: the root directory `/` or a named entry.
      `.` and `..` are assumed already resolved. */
  datatype Component = RootDir | Normal(name: string)

  /** A path is the sequence of its components; `/etc/hosts` is
      `[RootDir, Normal("etc"), Normal("hosts")]`. */
  type Path = seq<Component>

  /** `p.starts_with(base)`: `base` is a prefix of `p` made of whole components,
      so `/etc` is a prefix of `/etc/hosts` but not of `/etcd`. */
  predicate StartsWith(p: Path, base: Path)
  {
    |base| <= |p| && p[..|base|] == base
  }

  /** The path of the entry called `name` inside directory `dir`. */
  function Child(dir: Path, name: string): (r: Path)
    ensures |r| == |dir| + 1 && StartsWith(r, dir) && r[|dir|] == Normal(name)
  {
    dir + [Normal(name)]
  }

  /** `PathBuf::from(dir).join(name.unwrap_or_default())`: an absent or empty
      name leaves the directory itself. */
  function Join(dir: Path, name: Option<string>): (r: Path)
    ensures StartsWith(r, dir)
    ensures name.None? || name.value == [] ==> r == dir
    ensures name.Some? && name.value != [] ==> r == Child(dir, name.value)
  {
    match name
    case None => dir
    case Some(n) => if n == [] then dir else Child(dir, n)
  }

  lemma StartsWithReflexive(p: Path)
    ensures StartsWith(p, p)
  {
    assert p[..|p|] == p;
  }

  lemma StartsWithTransitive(p: Path, q: Path, r: Path)
    requires StartsWith(p, q) && StartsWith(q, r)
    ensures StartsWith(p, r)
  {
    assert p[..|r|] == p[..|q|][..|r|];
  }
}

=== FILE: policy.dfy ===
/** The mapping table and the permission resolver (`PermMapping`, `map_permission`). */
module Policy {
  import opened Wrappers
  import opened Paths
  import opened Metadata

  /** One configured rule: entries below `path` get owner `uid:gid`, files get
      `fmode` and directories `dmode`. */
  datatype PermMapping = PermMapping(path: Path, uid: u32, gid: u32, fmode: u32, dmode: u32)

  /** Rule `m` covers `p` when its path is a whole-component prefix of `p`. */
  predicate Covers(m: PermMapping, p: Path)
  {
    StartsWith(p, m.path)
  }

  /** Rule `i` is the first rule, in declaration order, that covers `p`. */
  predicate FirstMatchAt(ms: seq<PermMapping>, p: Path, i: int)
  {
    && 0 <= i < |ms|
    && Covers(ms[i], p)
    && forall j :: 0 <= j < i ==> !Covers(ms[j], p)
  }

  /** The mode `chown_and_chmod` applies: `dmode` for a directory, `fmode` otherwise. */
  function ModeFor(perm: PermMapping, isDir: bool): u32
  {
    if isDir then perm.dmode else perm.fmode
  }

  /** `map_permission`: scan the rules in order and return the first whose path
      is a prefix of `p`; `None` when no rule covers `p`. */
  function MapPermission(ms: seq<PermMapping>, p: Path): (r: Option<PermMapping>)
    ensures r.None? <==> forall i :: 0 <= i < |ms| ==> !Covers(ms[i], p)
    ensures r.Some? ==> exists i :: FirstMatchAt(ms, p, i) && ms[i] == r.value
  {
    if |ms| == 0 then None
    else if Covers(ms[0], p) then
      assert FirstMatchAt(ms, p, 0);
      Some(ms[0])
    else
      var r := MapPermission(ms[1..], p);
      assert r.Some? ==> exists i :: FirstMatchAt(ms, p, i) && ms[i] == r.value by {
        if r.Some? {
          var k :| FirstMatchAt(ms[1..], p, k) && ms[1..][k] == r.value;
          assert FirstMatchAt(ms, p, k + 1);
        }
      }
      r
  }

  /** The first match is unique, so the resolver's answer is determined by it. */
  lemma MapPermissionIsFirstMatch(ms: seq<PermMapping>, p: Path, i: int)
    requires FirstMatchAt(ms, p, i)
    ensures MapPermission(ms, p) == Some(ms[i])
  {
    var r := MapPermission(ms, p);
    assert r.Some? by {
      assert Covers(ms[i], p);
    }
    var k :| FirstMatchAt(ms, p, k) && ms[k] == r.value;
    assert Covers(ms[k], p) && Covers(ms[i], p);
  }

  /** Declaration order decides: rules appended after a matching prefix of the
      table are never consulted, and the appended rules decide only when no
      earlier rule covers the path. */
  lemma {:induction false} MapPermissionAppend(a: seq<PermMapping>, b: seq<PermMapping>, p: Path)
    ensures MapPermission(a + b, p)
         == (if MapPermission(a, p).Some? then MapPermission(a, p) else MapPermission(b, p))
    decreases |a|
  {
    if a == [] {
      assert a + b == b;
    } else {
      assert (a + b)[0] == a[0];
      assert (a + b)[1..] == a[1..] + b;
      if !Covers(a[0], p) {
        MapPermissionAppend(a[1..], b, p);
      }
    }
  }

  /** A configured rule always covers its own path, so the resolver finds a
      rule (the first covering one, which may be an earlier rule) for every
      configured root. */
  lemma ConfiguredRootIsMapped(ms: seq<PermMapping>, i: int)
    requires 0 <= i < |ms|
    ensures MapPermission(ms, ms[i].path).Some?
    ensures exists k :: 0 <= k <= i && FirstMatchAt(ms, ms[i].path, k)
  {
    StartsWithReflexive(ms[i].path);
    var r := MapPermission(ms, ms[i].path);
    var k :| FirstMatchAt(ms, ms[i].path, k) && ms[k] == r.value;
    assert k <= i;
  }

  /** Going deeper never selects a later rule: the rule chosen for a path
      covers all of its descendants, so a descendant resolves to that rule or
      to an earlier one. */
  lemma DescendantResolvesNoLater(ms: seq<PermMapping>, p: Path, q: Path, i: int)
    requires FirstMatchAt(ms, p, i)
    requires StartsWith(q, p)
    ensures exists k :: 0 <= k <= i && FirstMatchAt(ms, q, k)
  {
    StartsWithTransitive(q, p, ms[i].path);
    var r := MapPermission(ms, q);
    var k :| FirstMatchAt(ms, q, k) && ms[k] == r.value;
    assert k <= i;
  }

  /** The resolver's unit test: with rules for `/etc` then `/var`, the path
      `/etc/hosts` resolves to the `/etc` rule (uid 0, gid 0, 0644, 0755). */
  lemma EtcHostsResolvesToEtc()
    ensures
      var etc := PermMapping([RootDir, Normal("etc")], 0, 0, 0x1A4, 0x1ED);
      var var_ := PermMapping([RootDir, Normal("var")], 0, 0, 0x1A4, 0x1ED);
      MapPermission([etc, var_], [RootDir, Normal("etc"), Normal("hosts")]) == Some(etc)
  {
    var etc := PermMapping([RootDir, Normal("etc")], 0, 0, 0x1A4, 0x1ED);
    var hosts := [RootDir, Normal("etc"), Normal("hosts")];
    assert hosts[..2] == etc.path;
  }
}

=== FILE: scenarios.dfy ===
/** Concrete runs of the daemon. */
module Scenarios {
  import opened Wrappers
  import opened Paths
  import opened Metadata
  import opened Policy
  import opened Watches
  import opened DaemonState
  import opened Crawler
  import opened Events
  import opened Daemon

  const Srv: Path := [RootDir, Normal("srv")]
  const App: Path := Child(Srv, "app")
  const Sub: Path := Child(App, "sub")
  const Txt: Path := Child(Sub, "a.txt")

  /** uid 1000, gid 1000, files 0644, directories 0755 below `/srv/app`. */
  const AppRule: PermMapping := PermMapping(App, 1000, 1000, 0x1A4, 0x1ED)

  const Before: Meta := Meta(Directory, 0, 0, 0x1C0)

  /** The events of the scenario, batch by batch. */
  function MakeSub(): seq<Input>
  {
    [Input(Change({}, map[Sub := Before]), Event(1, IN_CREATE | IN_ISDIR, Some("sub")), [])]
  }

  function MakeTxt(): seq<Input>
  {
    [Input(Change({}, map[Txt := Meta(RegularFile, 0, 0, 0x180)]), Event(2, IN_CREATE, Some("a.txt")), [])]
  }

  /** Removing `sub` with its file: the file's deletion on `sub`'s watch,
      `IN_IGNORED` on that watch once `sub` is gone, then the directory's
      deletion on the root's watch. */
  function RemoveSub(): seq<Input>
  {
    [DeleteTxt(), SubIgnored(), DeleteSub()]
  }

  function DeleteTxt(): Input
  {
    Input(Change({Txt}, map[]), Event(2, IN_DELETE, Some("a.txt")), [])
  }

  function SubIgnored(): Input
  {
    Input(Change({Sub}, map[]), Event(2, IN_IGNORED, None), [])
  }

  function DeleteSub(): Input
  {
    Input(Change({}, map[]), Event(1, IN_DELETE | IN_ISDIR, Some("sub")), [])
  }

  /** The three batches, in delivery order. */
  function Batches(): seq<seq<Input>>
  {
    [MakeSub(), MakeTxt(), RemoveSub()]
  }

  lemma MaskFacts()
    ensures IsCreation(IN_CREATE | IN_ISDIR) && Has(IN_CREATE | IN_ISDIR, IN_ISDIR)
    ensures IsCreation(IN_CREATE) && !Has(IN_CREATE, IN_ISDIR)
    ensures !IsCreation(IN_DELETE) && Has(IN_DELETE, IN_DELETE)
    ensures !IsCreation(IN_DELETE | IN_ISDIR) && Has(IN_DELETE | IN_ISDIR, IN_DELETE)
  {
  }

  /** Startup with an empty `/srv/app` watches it under handle 1. */
  lemma StartupWatchesApp() returns (s0: State)
    ensures Startup([AppRule], map[App := Before], [[]]) == Success(s0)
    ensures s0.watches == map[1 := App] && s0.nextWd == 2 && s0.fs.Keys == {App}
  {
    var ms := [AppRule];
    var st := Initial(map[App := Before]);
    StartsWithReflexive(App);
    assert MapPermission(ms, App) == Some(AppRule);
    assert AllPaths(App, []) == {};
    s0 := Enforce(WatchDir(st, App), AppRule, App, true);
    assert Crawl(s0, App, [], AppRule) == s0;
    assert StartupFrom(ms, [[]], 1, s0) == Success(s0);
  }

  /** Creating `sub` adds its watch (two in all) and gives it 1000:1000, 0755. */
  lemma CreatingSubWatchesIt(s0: State) returns (s1: State)
    requires s0.watches == map[1 := App] && s0.nextWd == 2 && s0.fs.Keys == {App}
    ensures RunBatch([AppRule], s0, MakeSub()) == Success(s1)
    ensures s1.watches == map[1 := App, 2 := Sub] && s1.nextWd == 3 && s1.fs.Keys == {App, Sub}
    ensures s1.fs[Sub] == Meta(Directory, 1000, 1000, 0x1ED)
  {
    MaskFacts();
    var ms := [AppRule];
    var inp := MakeSub()[0];
    var a := Arrive(s0, inp);
    assert EventPath(a.watches, inp.event) == Sub;
    assert Sub[..|App|] == App;
    assert MapPermission(ms, Sub) == Some(AppRule);
    assert AllPaths(Sub, []) == {};
    assert CanHandle(ms, a, inp);
    s1 := Step(ms, a, inp);
    var w := Enforce(WatchDir(a, Sub), AppRule, Sub, true);
    assert Crawl(w, Sub, [], AppRule) == w;
    assert s1 == w;
    assert MakeSub()[1..] == [];
  }

  /** Creating `sub/a.txt` gives it 1000:1000, 0644 and adds no watch. */
  lemma CreatingTxtEnforcesIt(s1: State) returns (s2: State)
    requires s1.watches == map[1 := App, 2 := Sub] && s1.nextWd == 3 && s1.fs.Keys == {App, Sub}
    ensures RunBatch([AppRule], s1, MakeTxt()) == Success(s2)
    ensures s2.watches == s1.watches && s2.nextWd == 3 && s2.fs.Keys == {App, Sub, Txt}
    ensures s2.fs[Txt] == Meta(RegularFile, 1000, 1000, 0x1A4)
  {
    MaskFacts();
    var ms := [AppRule];
    var inp := MakeTxt()[0];
    var a := Arrive(s1, inp);
    assert EventPath(a.watches, inp.event) == Txt;
    assert Txt[..|App|] == App;
    assert MapPermission(ms, Txt) == Some(AppRule);
    assert CanHandle(ms, a, inp);
    s2 := Step(ms, a, inp);
    assert MakeTxt()[1..] == [];
  }

  /** Deleting `a.txt` changes no watch. */
  lemma RemovalNotices(s2: State)
    requires s2.watches == map[1 := App, 2 := Sub]
    ensures CanHandle([AppRule], Arrive(s2, DeleteTxt()), DeleteTxt())
    ensures Step([AppRule], Arrive(s2, DeleteTxt()), DeleteTxt()).watches == s2.watches
  {
    MaskFacts();
  }

  /** `IN_IGNORED` on `sub`'s watch drops it. */
  lemma InvalidationDropsSub(s: State)
    requires s.watches == map[1 := App, 2 := Sub]
    ensures CanHandle([AppRule], Arrive(s, SubIgnored()), SubIgnored())
    ensures Step([AppRule], Arrive(s, SubIgnored()), SubIgnored()).watches == map[1 := App]
  {
    IgnoredIsInvalidation();
    var r := Step([AppRule], Arrive(s, SubIgnored()), SubIgnored());
    OnlyRootLeft(s.watches, r.watches);
  }

  lemma OnlyRootLeft(before: WatchTable, after: WatchTable)
    requires before == map[1 := App, 2 := Sub]
    requires after.Keys == before.Keys - {2}
    requires forall w :: w in after ==> after[w] == before[w]
    ensures after == map[1 := App]
  {
    assert after.Keys == {1};
  }

  /** The directory's deletion, reported on the root's watch, changes no watch. */
  lemma DeletionKeepsRoot(s: State)
    requires s.watches == map[1 := App]
    ensures CanHandle([AppRule], Arrive(s, DeleteSub()), DeleteSub())
    ensures Step([AppRule], Arrive(s, DeleteSub()), DeleteSub()).watches == map[1 := App]
  {
    MaskFacts();
  }

  /** Removing `sub` and its file leaves only the root watch. */
  lemma RemovingSubDropsItsWatch(s2: State) returns (s3: State)
    requires s2.watches == map[1 := App, 2 := Sub]
    ensures RunBatch([AppRule], s2, RemoveSub()) == Success(s3)
    ensures s3.watches == map[1 := App]
  {
    var ms := [AppRule];
    RemovalNotices(s2);
    var a0 := Arrive(s2, DeleteTxt());
    var t1 := Step(ms, a0, DeleteTxt());
    InvalidationDropsSub(t1);
    var t2 := Step(ms, Arrive(t1, SubIgnored()), SubIgnored());
    DeletionKeepsRoot(t2);
    s3 := Step(ms, Arrive(t2, DeleteSub()), DeleteSub());
    RunBatchFirst(ms, s2, DeleteTxt(), [SubIgnored(), DeleteSub()]);
    RunBatchFirst(ms, t1, SubIgnored(), [DeleteSub()]);
    RunBatchFirst(ms, t2, DeleteSub(), []);
  }

  lemma ScenarioLast(s2: State) returns (s3: State)
    requires s2.watches == map[1 := App, 2 := Sub]
    ensures Run([AppRule], s2, [RemoveSub()]) == Waiting(s3)
    ensures s3.watches == map[1 := App]
  {
    s3 := RemovingSubDropsItsWatch(s2);
    RunNextBatch([AppRule], s2, RemoveSub(), [], s3);
  }

  lemma ScenarioTail(s1: State) returns (s3: State)
    requires s1.watches == map[1 := App, 2 := Sub] && s1.nextWd == 3 && s1.fs.Keys == {App, Sub}
    ensures Run([AppRule], s1, [MakeTxt(), RemoveSub()]) == Waiting(s3)
    ensures s3.watches == map[1 := App]
  {
    var s2 := CreatingTxtEnforcesIt(s1);
    s3 := ScenarioLast(s2);
    RunNextBatch([AppRule], s1, MakeTxt(), [RemoveSub()], s2);
  }

  lemma ScenarioLoop(s0: State) returns (s3: State)
    requires s0.watches == map[1 := App] && s0.nextWd == 2 && s0.fs.Keys == {App}
    ensures Run([AppRule], s0, Batches()) == Waiting(s3)
    ensures s3.watches == map[1 := App]
  {
    var s1 := CreatingSubWatchesIt(s0);
    s3 := ScenarioTail(s1);
    RunNextBatch([AppRule], s0, MakeSub(), [MakeTxt(), RemoveSub()], s1);
  }

  /** The whole scenario through startup and the event loop: after the three
      batches the daemon is back to one watch and still waiting for events. */
  lemma SrvAppScenario()
    ensures var r := RunDaemon([AppRule], map[App := Before], [[]], Batches());
      r.Waiting? && r.st.watches == map[1 := App]
  {
    var s0 := StartupWatchesApp();
    var s3 := ScenarioLoop(s0);
  }

  /** uid 0, gid 0 below `/srv`. */
  const SrvRule: PermMapping := PermMapping(Srv, 0, 0, 0x1A4, 0x1ED)

  /** The crawl does not re-resolve: with rules for `/srv/app` then `/srv`,
      startup first enforces `/srv/app` with its own rule, then crawls `/srv`
      with the `/srv` rule and so leaves `/srv/app` owned by uid 0, although
      the resolver (and hence every later event) maps `/srv/app` to uid 1000. */
  lemma CrawlOverridesNestedRule() returns (st: State)
    ensures var fs := map[Srv := Before, App := Before];
      Startup([AppRule, SrvRule], fs, [[], [Dir("app", [])]]) == Success(st)
    ensures App in st.fs && st.fs[App].uid == 0
    ensures MapPermission([AppRule, SrvRule], App) == Some(AppRule) && AppRule.uid == 1000
  {
    var ms := [AppRule, SrvRule];
    var fs := map[Srv := Before, App := Before];
    var snaps := [[], [Dir("app", [])]];
    StartsWithReflexive(App);
    StartsWithReflexive(Srv);
    assert MapPermission(ms, App) == Some(AppRule);
    assert !StartsWith(Srv, App);
    assert MapPermission(ms, Srv) == Some(SrvRule);
    assert AllPaths(App, []) == {};
    assert AllPaths(Srv, [Dir("app", [])]) == {App};
    var s1 := Enforce(WatchDir(Initial(fs), App), AppRule, App, true);
    assert Crawl(s1, App, [], AppRule) == s1;
    assert StartupFrom(ms, snaps, 0, Initial(fs)) == StartupFrom(ms, snaps, 1, s1);
    var s2 := Enforce(WatchDir(s1, Srv), SrvRule, Srv, true);
    st := Crawl(s2, Srv, [Dir("app", [])], SrvRule);
    var s3 := Enforce(WatchDir(s2, App), SrvRule, App, true);
    assert Crawl(s3, App, [], SrvRule) == s3;
    assert [Dir("app", [])][1..] == [];
    assert Crawl(s3, Srv, [], SrvRule) == s3;
    assert st == s3;
    assert StartupFrom(ms, snaps, 1, s1) == StartupFrom(ms, snaps, 2, st);
  }
}

=== FILE: state.dfy ===
/** The daemon's state and the two actions it takes on one path:
    registering a watch (`add_watch`) and enforcing a rule (`chown_and_chmod`). */
module DaemonState {
  import opened Paths
  import opened Metadata
  import opened Policy
  import opened Watches

  /** `watches` is the watch table, `fs` the filesystem metadata, `nextWd` the
      handle the kernel hands out next and `trace` every metadata call issued so far. */
  datatype State = State(watches: WatchTable, fs: FileSystem, nextWd: int, trace: seq<Op>)

  /** Every handle in the table was handed out before, so the next one is fresh. */
  predicate FreshAllocator(st: State)
  {
    forall wd :: wd in st.watches ==> wd < st.nextWd
  }

  /** The state right after the configuration is loaded: no watches, no calls made.
      Linux numbers watch handles from 1. */
  function Initial(fs: FileSystem): (st: State)
    ensures FreshAllocator(st) && st.watches == map[] && st.trace == []
  {
    State(map[], fs, 1, [])
  }

  /** `add_watch(path)`: register `p` with the kernel, which returns the handle
      `nextWd`, and record the pair in the table. Registering a path that does
      not exist fails, which the source turns into a panic. */
  function WatchDir(st: State, p: Path): (r: State)
    requires p in st.fs
    ensures r.watches == Insert(st.watches, st.nextWd, p)
    ensures r.nextWd == st.nextWd + 1
    ensures FreshAllocator(st) ==> FreshAllocator(r) && |r.watches| == |st.watches| + 1
    ensures r.fs == st.fs && r.trace == st.trace
  {
    st.(watches := Insert(st.watches, st.nextWd, p), nextWd := st.nextWd + 1)
  }

  /** `add_watch_test`: one directory watched from the initial state leaves a
      table of size 1. */
  lemma AddWatchToEmpty(fs: FileSystem, p: Path)
    requires p in fs
    ensures |WatchDir(Initial(fs), p).watches| == 1
  {
  }

  /** Metadata `m` once `perm` is enforced on it: the rule's owner and group,
      and its directory or file mode; the kind of entry is untouched. */
  function Enforced(m: Meta, perm: PermMapping, isDir: bool): Meta
  {
    Meta(m.ftype, perm.uid, perm.gid, ModeFor(perm, isDir))
  }

  /** `chown_and_chmod(perm, p, isDir)`: owner first, then mode. */
  function Enforce(st: State, perm: PermMapping, p: Path, isDir: bool): (r: State)
    requires p in st.fs
    ensures r.fs.Keys == st.fs.Keys
    ensures r.fs[p] == Enforced(st.fs[p], perm, isDir)
    ensures forall q :: q in st.fs && q != p ==> r.fs[q] == st.fs[q]
    ensures r.trace == st.trace + [SetOwner(p, perm.uid, perm.gid), SetMode(p, ModeFor(perm, isDir))]
    ensures r.watches == st.watches && r.nextWd == st.nextWd
  {
    var mode := ModeFor(perm, isDir);
    var fs1 := Chown(st.fs, p, perm.uid, perm.gid);
    st.(fs := Chmod(fs1, p, mode),
        trace := st.trace + [SetOwner(p, perm.uid, perm.gid), SetMode(p, mode)])
  }

  /** The metadata after enforcement is exactly the replay of the two calls it recorded. */
  lemma EnforceReplays(st: State, perm: PermMapping, p: Path, isDir: bool)
    requires p in st.fs
    ensures var r := Enforce(st, perm, p, isDir);
      && st.trace <= r.trace
      && Targets(st.fs, r.trace[|st.trace|..])
      && r.fs == Replay(st.fs, r.trace[|st.trace|..])
      && EnforcesOnly(r.trace[|st.trace|..], perm)
  {
    var r := Enforce(st, perm, p, isDir);
    var ops := r.trace[|st.trace|..];
    assert ops[2..] == [];
    assert ops == [SetOwner(p, perm.uid, perm.gid), SetMode(p, ModeFor(perm, isDir))];
    var fs1 := Chown(st.fs, p, perm.uid, perm.gid);
    assert ApplyOp(st.fs, ops[0]) == fs1;
    assert ApplyOp(fs1, ops[1..][0]) == r.fs;
    assert ops[1..][1..] == [];
    assert Replay(r.fs, ops[1..][1..]) == r.fs;
    assert Replay(fs1, ops[1..]) == r.fs;
  }

  /** `ops` is a run of enforcements of one rule `perm`: each is an owner change
      to the rule's `uid:gid` immediately followed by a mode change of the same
      path to the rule's directory or file mode. */
  predicate EnforcesOnly(ops: seq<Op>, perm: PermMapping)
    decreases |ops|
  {
    ops == [] ||
    (&& |ops| >= 2
     && ops[0] == SetOwner(ops[0].path, perm.uid, perm.gid)
     && (ops[1] == SetMode(ops[0].path, perm.dmode) || ops[1] == SetMode(ops[0].path, perm.fmode))
     && EnforcesOnly(ops[2..], perm))
  }

  lemma {:induction false} EnforcesOnlyAppend(a: seq<Op>, b: seq<Op>, perm: PermMapping)
    requires EnforcesOnly(a, perm) && EnforcesOnly(b, perm)
    ensures EnforcesOnly(a + b, perm)
    decreases |a|
  {
    if a != [] {
      assert (a + b)[2..] == a[2..] + b;
      EnforcesOnlyAppend(a[2..], b, perm);
    } else {
      assert a + b == b;
    }
  }

  /** Enforcing the same rule twice on an unchanged path yields the same metadata as once. */
  lemma EnforceIdempotent(st: State, perm: PermMapping, p: Path, isDir: bool)
    requires p in st.fs
    ensures Enforce(Enforce(st, perm, p, isDir), perm, p, isDir).fs == Enforce(st, perm, p, isDir).fs
  {
  }

  /** `chown_and_chmod_test`: a file under a uid 1000, gid 1000, 0644/0755 rule
      ends up `1000:1000` with mode 0644, a directory with mode 0755. */
  lemma ChownAndChmodExample(st: State, file: Path, dir: Path)
    requires file in st.fs && dir in st.fs && file != dir
    ensures var perm := PermMapping([RootDir, Normal("tmp")], 1000, 1000, 0x1A4, 0x1ED);
      var r := Enforce(Enforce(st, perm, file, false), perm, dir, true);
      && r.fs[file].uid == 1000 && r.fs[file].gid == 1000 && r.fs[file].mode == 0x1A4
      && r.fs[dir].uid == 1000 && r.fs[dir].gid == 1000 && r.fs[dir].mode == 0x1ED
  {
  }
}

=== FILE: watches.dfy ===
/** The watch table: watch handle -> watched directory (`HashMap<i32, PathBuf>`). */
module Watches {
  import opened Paths

  type WatchTable = map<int, Path>

  /** `watches.insert(wd, path)` as `add_watch` does it: the new pair is
      present, an existing entry for `wd` is overwritten, nothing else moves. */
  function Insert(t: WatchTable, wd: int, p: Path): (r: WatchTable)
    ensures r.Keys == t.Keys + {wd}
    ensures r[wd] == p
    ensures forall w :: w in t && w != wd ==> r[w] == t[w]
    ensures wd !in t ==> |r| == |t| + 1
    ensures wd in t ==> |r| == |t|
  {
    t[wd := p]
  }

  /** `watches.remove(&wd)`: drop exactly the entry for `wd`, if any. */
  function Remove(t: WatchTable, wd: int): (r: WatchTable)
    ensures r.Keys == t.Keys - {wd}
    ensures forall w :: w in r ==> r[w] == t[w]
    ensures wd in t ==> |r| == |t| - 1
    ensures wd !in t ==> r == t
  {
    t - {wd}
  }

  /** Registering a handle and then seeing it invalidated leaves the table as it was,
      provided the handle was fresh. */
  lemma InsertThenRemove(t: WatchTable, wd: int, p: Path)
    requires wd !in t
    ensures Remove(Insert(t, wd, p), wd) == t
  {
  }
}

=== FILE: wrappers.dfy ===
/** Option and Result types shared by the model. */
module Wrappers {

  /** An optional value: Rust's `Option`. */
  datatype Option<+T> = None | Some(value: T)

  /** A value or an error. */
  datatype Result<+T, +E> = Success(value: T) | Failure(error: E)
}
